=== FILE: README.md ===
# PCSX2 VTLB: address translation, modelled in Dafny

PCSX2 emulates the PlayStation 2's memory through its VTLB (`pcsx2/vtlb.cpp`).
The VTLB keeps three tables:

- the physical page table `pmap`, with one entry per 4 KiB page of the
  512 MiB physical window. An entry is either a host address or
  `slot | 0x80000000`;
- the virtual page table `vmap`, with one entry per 4 KiB page of the 4 GiB
  virtual space. Each entry is stored as *target minus page address*;
- the handler table `RWFT`, with 128 slots of ten read and write callbacks.
  It is filled by `vtlb_RegisterHandler` and counted by `vtlbHandlerCount`.

An access adds the address to its page's entry, giving `ppf`.
- If `ppf`, read as a signed word, is not negative, it is the host address
  to load from or store to.
- Otherwise the entry's low byte picks the handler slot. The handler is
  called with `ppf - slot + 0x80000000` as the physical address.

The model is organised in these modules:

- `Words` (`words.dfy`): 32-bit words as bounded integers. Addition and
  subtraction wrap explicitly. The sign test, `>> 12`, `& 4095` and `(u8)`
  are written out, and `|` is built on `Bits.Or` (`bits.dfy`).
- `Arith` (`arith.dfy`): small facts about division and remainder.
- `Handlers` (`handlers.dfy`): the handler table and its counter, and
  registration. It also covers the built-in unmapped and default callbacks
  and what they do when called. A device's own callback is an opaque tag.
- `PhysMap` (`physmap.dfy`): `vtlb_MapHandler`, `vtlb_MapBlock`,
  `vtlb_Mirror` and `vtlb_GetPhyPtr`, each taking and returning `pmap` as a
  sequence.
- `VirtMap` (`virtmap.dfy`): `vtlb_VMap`, `vtlb_VMapBuffer` and
  `vtlb_VMapUnmap`.
  - Each walks its range a page at a time with 32-bit wrap-around, exactly
    as the loops do, so a range that passes `0xFFFFF000` carries on at
    page 0.
  - The effect is stated page by page through `Covered`: page `j` is
    covered when it is fewer than `sz / 4096` pages (mod 2^20) past the
    first.
- `Translate` (`translate.dfy`): the decision `MemOp_r0/r1/w0/w1` make for
  one access.
  - `Access` returns the host addresses touched, or the handler slot with
    the physical address it is called with.
  - `Call` gives what that slot's callback for the accessed port does.
- `Vtlb` (`vtlb.dfy`): the state as a whole and `vtlb_Init`. It follows an
  access end to end, from the mapping call that set its page to the
  outcome. `BootExample` calls `Init`, then one `MapBlock` and one `VMap`,
  and shows a mapped read and an unmapped read.

Each `verify(...)` check in the code is a precondition in the model. The
top bit of the physical address is lost in translation. The code restores
it with two unmapped-virtual and two unmapped-physical handler sets, one
for each half of the address space; the model proves that this restores
exactly the accessed address.

Two edges of the encoding are stated rather than assumed away:

- **Host addresses at or above `0x80000000`.** The fast path tests the sign
  of `ppf`, so host memory at or above `0x80000000` cannot be reached
  directly. The host-side lemmas carry that bound as a precondition.
- **The wrap at the top of the address space.** A handler target is
  `slot + (page | 0x80000000)`. With the top bit set, page `0x7FFFF000` and
  page `0xFFFFF000` both become `0xFFFFF000`. So for either page, a slot
  above 0 plus an offset of at least `4096 - slot` makes the sum pass 2^32.
  The sum then wraps to a small non-negative number, and the access takes
  the fast path instead of calling the handler (`HandlerWraps`).
  - Virtual side: after `vtlb_Init`, virtual page `0xFFFFF000` is aimed at
    slot 1. A read of `0xFFFFFFFF` therefore goes to host address 0, not to
    the TLB-miss handler (`InitTopAddressWraps`). Page `0x7FFFF000` uses
    slot 0 and cannot wrap. Every other address misses as designed
    (`InitMisses`).
  - Physical side: `vtlb_VMap` can aim a virtual page at physical
    `0x7FFFF000` or `0xFFFFF000`, both outside the window. After `vtlb_Init`
    such a page is aimed at unmapped-physical slot 2 or 3, and its last bytes take the fast
    path to host addresses 0, 1 and so on, instead of reporting the bus
    error (`MappedUnmappedPhysWraps`).

The model follows the code in three places where the intended behaviour
might be read differently:

- `vtlb_RegisterHandler` has no capacity check. A 129th registration writes
  past the end of `RWFT`, so the model requires fewer than 128 registered
  handlers.
- The `vtlbDefaultPhy*` callbacks print a diagnostic, and their reads
  return all bits set. They do not report a bus error (`DefaultAccess`,
  `BuiltinReply`).
- `MemOp_r1`/`MemOp_w1` move one 64-bit word, or two 64-bit words 8 bytes
  apart for 128 bits (`Transfers`).

## Model

| member | source | states |
|---|---|---|
| Words.OrSign | pcsx2/vtlb.cpp:455 | `x \| 0x80000000` sets the sign bit and changes no other bit |
| Words.OrLowPage | pcsx2/vtlb.cpp:454 | OR-ing a slot number below 4096 into a page-aligned address is addition: the slot stays in the offset bits |
| Words.OrHandlerPage | pcsx2/vtlb.cpp:419-420 | OR-ing a page-aligned physical address into a handler entry `slot \| 0x80000000` gives the slot plus the address with its top bit set |
| Handlers.Cleared | pcsx2/vtlb.cpp:465-466 | after the reset, the counter is 0 and every cell of every slot is null |
| Handlers.RegisterHandler | pcsx2/vtlb.cpp:311-330 | the new slot is the old counter value and the counter goes up by one; each of the ten cells holds the argument given, or the default physical callback where the argument was null, so no cell is null; every other slot is unchanged |
| Handlers.RegisterTwice | pcsx2/vtlb.cpp:315 | two registrations in a row get consecutive, increasing slots, and the first slot survives the second registration |
| Handlers.Invoke | pcsx2/vtlb.cpp:257-309 | an unmapped-virtual callback raises the TLB miss, and an unmapped-physical one the bus error, at the address OR-ed with the handler's own top-bit argument, in the access's direction; a device callback is called with the address unchanged (what the built-in handlers then report is stated by `UnmappedRestoresTopBit`) |
| Handlers.UnmappedRestoresTopBit | pcsx2/vtlb.cpp:257-297 | called with an address whose top bit is clear, the upper-half unmapped handler reports the address with the top bit set and the lower-half handler reports it unchanged; a virtual handler raises a TLB miss and a physical one a bus error, in the access's direction |
| Handlers.BuiltinReply | pcsx2/vtlb.cpp:258-309 | an 8/16/32-bit read of a built-in handler returns a value, 0 for the unmapped handlers and all bits set for the default handler; 64/128-bit reads and all writes return none |
| PhysMap.HandlerEntry | pcsx2/vtlb.cpp:336 | `handler \| 0x80000000` is negative as an `s32`, equals the slot plus `0x80000000`, and keeps the slot in its low byte |
| PhysMap.MapHandler | pcsx2/vtlb.cpp:332-345 | every page of the range holds the handler entry; every page outside it is unchanged |
| PhysMap.FillBlock | pcsx2/vtlb.cpp:357-371 | one pass of the inner loop: the `bs` bytes from `at` point at consecutive host pages from `base`; all other pages are unchanged |
| PhysMap.MapBlock | pcsx2/vtlb.cpp:346-372 | every page of the range points at `base` plus its distance from `start` modulo the block size, with `blocksize == 0` meaning one block; every page outside is unchanged |
| PhysMap.BlockPointer | pcsx2/vtlb.cpp:389-396 | after `MapBlock`, the entry of any page in the range is `base` plus the page's distance from `start` modulo the block size; the physical-pointer lookup of any address in the range is `base` plus the address's distance modulo the block size, or 0 when that entry has its top bit set (a block whose host address reaches `0x80000000`) |
| PhysMap.Mirror | pcsx2/vtlb.cpp:373-387 | the pages are copied one at a time in ascending order, each from the page the same distance into the source (which may already have been overwritten when the ranges overlap); pages outside the destination are unchanged |
| PhysMap.MirrorCopies | pcsx2/vtlb.cpp:381 | when the destination starts at or before the source, or the ranges are disjoint, each destination page holds the source page's original entry |
| PhysMap.MirrorAliases | pcsx2/vtlb.cpp:373-396 | after mirroring disjoint ranges, each byte of the destination resolves to the same host pointer as the matching source byte did, and the source's own lookups do not change |
| PhysMap.GetPhyPtr | pcsx2/vtlb.cpp:389-396 | 0 for an address outside the window or on a handler page; otherwise the page's host address plus the offset |
| VirtMap.VMapUnmap | pcsx2/vtlb.cpp:442-460 | every page the walk covers, wrap-around included, holds its unmapped-virtual entry; every other page is unchanged |
| VirtMap.VMap | pcsx2/vtlb.cpp:399-427 | every covered page holds the entry for the physical page at the same distance from `paddr`; every other page is unchanged |
| VirtMap.VMapBuffer | pcsx2/vtlb.cpp:429-441 | every covered page holds the buffer address at the same distance, minus the page address; every other page is unchanged |
| VirtMap.MapEntryAt | pcsx2/vtlb.cpp:405-424 | the entry written at step `k` of the loop, from the running addresses, is the entry for the page `k` pages from the start |
| VirtMap.UnmapTarget | pcsx2/vtlb.cpp:449-455 | the target an unmapped page is aimed at always has its top bit set, so the page is handler-shaped whatever slot and address go into it |
| VirtMap.UnmapTargetShape | pcsx2/vtlb.cpp:449-455 | the unmapped target of a page-aligned address is the slot of its half of the address space plus the address with its top bit set |
| VirtMap.PhysTargetShape | pcsx2/vtlb.cpp:407-421 | the target of a physical page is, by case, the unmapped-physical slot of its half plus the address with its top bit set (outside the window), the handler slot plus that address (handler page), or the host address (memory page) |
| VirtMap.PhysTargetSign | pcsx2/vtlb.cpp:407-421 | the target `PhysTarget` gives a physical address has its top bit set exactly when the address is outside the window or on a handler page; on a memory page it is that page's host address |
| VirtMap.MapEntryRam | pcsx2/vtlb.cpp:418-422 | a page aimed at a memory page holds that page's host address minus the page's own address |
| VirtMap.MapEntryHandler | pcsx2/vtlb.cpp:418-422 | a page aimed at a handler page holds the slot plus the physical address with its top bit set, minus the page's own address |
| VirtMap.MapEntryOutside | pcsx2/vtlb.cpp:408-414 | a page aimed outside the window holds the unmapped-physical slot of that half plus the physical address with its top bit set, minus the page's own address |
| VirtMap.CoveredByte | pcsx2/vtlb.cpp:405-426 | each byte `x < sz` past `vaddr`, wrap-around included, lies on a covered page `x / 4096` pages into the walk, at the same offset as `x` |
| VirtMap.AlongByte | pcsx2/vtlb.cpp:422-424 | the page that holds byte `x` past `vaddr` was aimed at the page that holds byte `x` past `paddr`: stepping both addresses together keeps them `x` apart |
| Translate.Decode | pcsx2/vtlb.cpp:88-96 | the fast path is taken exactly when `ppf` is not negative, and goes to `ppf`; otherwise the slot is the entry's low byte (below 256). What the decision means for an entry `VMap` or `VMapUnmap` stored is stated by `DirectRoundTrip`, `HandlerRoundTrip` and `HandlerWraps` |
| Translate.Transfers | pcsx2/vtlb.cpp:114-122 | an 8 to 64-bit access touches one host address; a 128-bit access touches that address and the one 8 bytes further on |
| Translate.Access | pcsx2/vtlb.cpp:86-193 | an access goes to host memory exactly when the decision takes the fast path, at the addresses `Transfers` gives; otherwise its slot is the entry's low byte, and it reaches a handler exactly when that slot is below 128. Its meaning for each kind of mapped page is stated by `AccessDirect`, `AccessHandler` and the `Vtlb` access lemmas |
| Translate.Call | pcsx2/vtlb.cpp:100-106 | the callback reached is the slot's cell for the access's width and direction; an unmapped-virtual cell gives a TLB miss and an unmapped-physical cell a bus error |
| Translate.DirectRoundTrip | pcsx2/vtlb.cpp:88-92 | an entry stored as `t - page` gives, for every address in the page, the fast path to `t` plus the offset, while that sum stays below `0x80000000` |
| Translate.HandlerRoundTrip | pcsx2/vtlb.cpp:88-96 | an entry stored as `slot + (a \| 0x80000000) - page` gives, for every address in the page, slot `slot` and physical address `a` with its top bit cleared plus the offset, while the target plus the offset stays below 2^32 |
| Translate.HandlerWraps | pcsx2/vtlb.cpp:89-91 | when that sum reaches 2^32, the handler's page with its top bit set is `0xFFFFF000` (physical or virtual page `0x7FFFF000` or `0xFFFFF000`), and the access takes the fast path to the wrapped sum |
| Translate.LowByteOfEntry | pcsx2/vtlb.cpp:95 | the low byte of `slot + page-aligned value - page address` is the slot, wrap-around included |
| Translate.AccessDirect | pcsx2/vtlb.cpp:114-122 | while the target plus the offset stays below `0x80000000`, an access through a host entry touches the target plus the offset, and for 128 bits also the address 8 bytes further on |
| Translate.AccessHandler | pcsx2/vtlb.cpp:124-137 | while the handler target plus the offset stays below 2^32, an access through a handler entry reaches that slot with the physical address, top bit cleared, plus the offset |
| Translate.SlowPathSubtractAgrees | pcsx2/vtlb.cpp:627-631 | the generated code's `ppf - slot - 0x80000000` equals the interpreter's `ppf - slot + 0x80000000` modulo 2^32 |
| Vtlb.RegisterKeeps | pcsx2/vtlb.cpp:317-327 | registering a template with no null cell fills the slot with exactly that template |
| Vtlb.InitCovers | pcsx2/vtlb.cpp:497-499 | the two unmap calls of initialisation together cover every virtual page, the second covering the last page |
| Vtlb.Init | pcsx2/vtlb.cpp:462-500 | slots 0 to 3 hold the unmapped virtual and physical handlers for the lower and upper halves, and slot 4 the default handler; the counter is 5 and later slots are null; every physical page is served by the default handler; every virtual page holds its unmapped-virtual entry |
| Vtlb.FirstUserSlot | pcsx2/vtlb.cpp:489 | after initialisation the next registration gets slot 5 and leaves the reserved slots as they were |
| Vtlb.InitNoPhysicalPointers | pcsx2/vtlb.cpp:494 | after initialisation no physical address has a host pointer |
| Vtlb.UnmappedVirtReports | pcsx2/vtlb.cpp:242-276 | the unmapped-virtual slot of an address's half, called with the address with its top bit cleared, raises the TLB miss for the full address |
| Vtlb.UnmappedPhysReports | pcsx2/vtlb.cpp:251-297 | the unmapped-physical slot of a physical page's half, called with any address of the page with its top bit cleared, reports the bus error for the full address |
| Vtlb.UnmappedAccessMisses | pcsx2/vtlb.cpp:449-456 | an access to an unmapped page reaches the unmapped-virtual slot of its half with the address, top bit cleared, and that slot raises the TLB miss for exactly the accessed address |
| Vtlb.InitMisses | pcsx2/vtlb.cpp:462-500 | after initialisation every access except one to `0xFFFFFFFF` reaches slot 0 or 1, by half, and raises the TLB miss for the accessed address |
| Vtlb.InitTopAddressWraps | pcsx2/vtlb.cpp:497-499 | after initialisation an access to `0xFFFFFFFF` takes the fast path to host address 0 |
| Vtlb.InitReadsZero | pcsx2/vtlb.cpp:258-276 | after initialisation, an 8, 16 or 32-bit read of any address except `0xFFFFFFFF` reaches slot 0 or 1 (by half), and that unmapped-virtual handler's read returns 0 |
| Vtlb.InitDefaultReadsAllOnes | pcsx2/vtlb.cpp:299-309 | after initialisation, a page that `VMap` aims into the window reaches the default slot with the accessed byte's physical address; the call is an unhandled-access report at that address, and an 8, 16 or 32-bit read returns all bits set |
| Vtlb.MappedRamAccess | pcsx2/vtlb.cpp:416-422 | an access to a page that `VMap` aimed at a memory page reaches host memory where `GetPhyPtr` puts the accessed byte's physical address |
| Vtlb.MappedByteAccess | pcsx2/vtlb.cpp:399-427 | after `VMap`, byte `x < sz` past `vaddr` reaches host memory where `GetPhyPtr` puts byte `x` past `paddr`, when that lies on a memory page |
| Vtlb.MappedHandlerAccess | pcsx2/vtlb.cpp:418-420 | an access to a page that `VMap` aimed at a handler page reaches that handler's slot with the physical address of the accessed byte |
| Vtlb.MappedUnmappedPhysAccess | pcsx2/vtlb.cpp:408-415 | an access to a page that `VMap` aimed outside the window reaches the unmapped-physical slot of that half with the physical address, top bit cleared |
| Vtlb.MappedUnmappedPhysWraps | pcsx2/vtlb.cpp:408-414 | when that sum reaches 2^32, the physical page is `0x7FFFF000` or `0xFFFFF000`, and the access takes the fast path to the wrapped sum instead of calling the unmapped-physical handler |
| Vtlb.BufferAccess | pcsx2/vtlb.cpp:433-436 | an access to a page that `VMapBuffer` set reaches the buffer as far in as the page is past the mapped start, plus the offset |
| Vtlb.BufferByteAccess | pcsx2/vtlb.cpp:429-441 | after `VMapBuffer`, byte `x < sz` past `vaddr` reaches byte `x` of the buffer |
| Vtlb.BootExample | pcsx2/vtlb.cpp:462-500 | after initialisation, mapping 32 MiB of host memory at `ram` and the same virtual range: a 32-bit read of `0x1000` reads `ram + 0x1000`, and a read of `0x10000000` reaches slot 0 and raises the TLB miss for that address |

## Left out

- Code generation (`vtlb_DynGenRead*` / `vtlb_DynGenWrite*`, `pcsx2/vtlb.cpp:516-790`) emits x86 code for the same decision. Only its slow-path subtraction is modelled (`SlowPathSubtractAgrees`), because the rest is instruction encoding.
- Host memory contents are not modelled, because they live outside the tables. The model says which host addresses an access touches, not what it loads or stores. The 64/128-bit data layout in the caller's buffer is left out with them.
- `SysPrintf` diagnostics are not modelled, because they are output only. A `verify(false)` inside a handler is a debug trap and is left out. Every other `verify` is a precondition.
- The internals of `cpuTlbMissR` / `cpuTlbMissW` belong to the CPU core. They are reduced to the `TlbMiss` effect.
- What a device's own callbacks do is not part of this model, because they are registered from other files. They appear as `Device(id)` tags and `DeviceCall` effects.
- `vtlb_Reset` calls `UnmapTLB` from another file, and `vtlb_Term` does nothing, so neither is modelled.
- `memRead8/16/32` (`pcsx2/vtlb.cpp:237-239`) only forward to the `vtlb_memRead*` entry points. They are covered by `Access`.
- Handlers.RegisterHandler: requires fewer than 128 registered handlers. The code does not check; a 129th registration would write past the end of `RWFT`.
- PhysMap.MapHandler: requires the range to lie inside the 512 MiB window. The code does not check, and a range past it would write beyond `pmap`.
- PhysMap.MapBlock: requires the range to lie inside the window, for the same reason.
- PhysMap.Mirror: requires both ranges to lie inside the window, for the same reason.
- PhysMap.MirrorCopies: states the copy only for ranges that do not overlap, or whose destination starts first. For a destination that starts inside the source, `Mirror`'s own contract gives the cascading copy.
- Translate.DirectRoundTrip: requires the host target plus the offset to stay below `0x80000000`. Above it the sign test sends the access to a handler, which the encoding cannot avoid.
- Translate.HandlerRoundTrip: requires the handler target plus the offset to stay below 2^32. `HandlerWraps` states what happens otherwise.
- Translate.AccessDirect: requires the host target plus the offset to stay below `0x80000000`, as for `DirectRoundTrip`. Above it the access takes the handler path.
- Translate.AccessHandler: requires the handler target plus the offset to stay below 2^32, as for `HandlerRoundTrip`. `HandlerWraps` states what happens otherwise.
- Vtlb.UnmappedAccessMisses: requires the slot plus the address with its top bit set to stay below 2^32, for the same wrap.
- Vtlb.InitMisses: excludes `0xFFFFFFFF`, which `InitTopAddressWraps` covers.
- Vtlb.MappedUnmappedPhysAccess: requires the slot plus the physical address with its top bit set, plus the offset, to stay below 2^32, for the same wrap. `MappedUnmappedPhysWraps` states what happens otherwise.
- Vtlb.MappedRamAccess: requires the host address plus the offset to stay below `0x80000000`, as for `DirectRoundTrip`.
- Vtlb.MappedByteAccess: requires the same bound as `MappedRamAccess`, and covers only bytes that land on a memory page of the window.
- Vtlb.BufferAccess: requires the buffer address reached to stay below `0x80000000`.
- Vtlb.BufferByteAccess: requires `buffer + x` to stay below `0x80000000`, so it does not follow a buffer walk that wraps past 2^32.
- Translate.Access: a slot number of 128 or more reads past the end of `RWFT` in the code. The model reports it as `Stray` and does not say what such a call does.

=== FILE: arith.dfy ===
/** Facts about integer division and remainder by a variable divisor, which
    the solver does not find on its own. They are used where a physical block
    repeats with a period chosen by the caller. */
module Arith {

  /** A positive multiple of `b` is at least `b`. */
  lemma {:induction false} MulAtLeast(b: int, k: int)
    requires b > 0 && k >= 1
    ensures b * k >= b
    decreases k
  {
    if k > 1 {
      MulAtLeast(b, k - 1);
      assert b * k == b * (k - 1) + b;
    }
  }

  /** Quotient and remainder are unique: any decomposition `x == b*q + r`
      with `0 <= r < b` is the one `/` and `%` compute. */
  lemma ModUnique(x: int, b: int, q: int, r: int)
    requires b > 0 && 0 <= r < b && x == b * q + r
    ensures x % b == r && x / b == q
  {
    var q' := x / b;
    var r' := x % b;
    assert x == b * q' + r';
    assert b * q - b * q' == b * (q - q');
    if q > q' {
      MulAtLeast(b, q - q');
    } else if q < q' {
      MulAtLeast(b, q' - q);
    }
  }

  /** Adding a whole period to a multiple of the period keeps it a multiple. */
  lemma ModAddPeriod(d: int, b: int)
    requires b > 0 && d % b == 0
    ensures (d + b) % b == 0
  {
    ModUnique(d + b, b, d / b + 1, 0);
  }

  /** Inside one period that starts at a multiple of `b`, the remainder is
      the distance from the start of the period. */
  lemma ModWithinPeriod(d: int, b: int, j: int)
    requires b > 0 && d % b == 0 && 0 <= j < b
    ensures (d + j) % b == j
  {
    ModUnique(d + j, b, d / b, j);
  }

  /** A positive multiple of `b` leaves room for at least one more period,
      and removing that period leaves a multiple of `b`. */
  lemma MultipleAtLeast(x: int, b: int)
    requires b > 0 && x > 0 && x % b == 0
    ensures x >= b && (x - b) % b == 0
  {
    var q := x / b;
    assert x == b * q;
    assert q >= 1;
    MulAtLeast(b, q);
    ModUnique(x - b, b, q - 1, 0);
  }

  /** When `b` is a multiple of `m`, so is every multiple of `b`. */
  lemma MultipleOfMultiple(b: int, m: int, q: int)
    requires m > 0 && b % m == 0
    ensures (b * q) % m == 0
  {
    var k := b / m;
    assert b == m * k;
    assert b * q == m * (k * q);
    ModUnique(b * q, m, k * q, 0);
  }
}

=== FILE: bits.dfy ===
/** Bitwise OR on natural numbers, defined one binary digit at a time, with
    the few laws the page-table encodings rely on: it stays below a power of
    two, it sets a single high bit, and it acts digit-wise on the part above
    a page offset. */
module Bits {

  function Pow2(k: nat): (r: nat)
    ensures r >= 1
  {
    if k == 0 then 1 else 2 * Pow2(k - 1)
  }

  /** The value of `a | b`: the lowest digit is set when either lowest digit
      is, and the remaining digits are the OR of `a >> 1` and `b >> 1`. */
  function Or(a: nat, b: nat): nat
    decreases a + b
  {
    if a == 0 then b
    else if b == 0 then a
    else 2 * Or(a / 2, b / 2) + (if a % 2 == 1 || b % 2 == 1 then 1 else 0)
  }

  /** The digit-wise step holds even when one operand is zero. */
  lemma OrPeel(a: nat, b: nat)
    ensures Or(a, b) == 2 * Or(a / 2, b / 2) + (if a % 2 == 1 || b % 2 == 1 then 1 else 0)
  {
    if a == 0 {
      assert Or(a / 2, b / 2) == b / 2;
    } else if b == 0 {
      assert Or(a / 2, b / 2) == a / 2 by {
        if a / 2 != 0 { assert Or(a / 2, 0) == a / 2; }
      }
    }
  }

  lemma {:induction false} OrComm(a: nat, b: nat)
    ensures Or(a, b) == Or(b, a)
    decreases a + b
  {
    if a != 0 && b != 0 {
      OrComm(a / 2, b / 2);
    }
  }

  /** Two values of `k` digits OR to a value of `k` digits. */
  lemma {:induction false} OrBelow(a: nat, b: nat, k: nat)
    requires a < Pow2(k) && b < Pow2(k)
    ensures Or(a, b) < Pow2(k)
    decreases k
  {
    if k > 0 && a != 0 && b != 0 {
      OrBelow(a / 2, b / 2, k - 1);
    }
  }

  /** OR only sets digits, so it is at least either operand. */
  lemma {:induction false} OrAtLeast(a: nat, b: nat)
    ensures Or(a, b) >= a && Or(a, b) >= b
    decreases a + b
  {
    if a != 0 && b != 0 {
      OrAtLeast(a / 2, b / 2);
    }
  }

  /** Setting digit `k` of a value of `k+1` digits adds `2^k` exactly when
      that digit was clear. */
  lemma {:induction false} OrPow(x: nat, k: nat)
    requires x < Pow2(k + 1)
    ensures Or(x, Pow2(k)) == if x >= Pow2(k) then x else x + Pow2(k)
    decreases k
  {
    if k == 0 {
      assert x == 0 || x == 1;
      if x == 1 { assert Or(1, 1) == 2 * Or(0, 0) + 1; }
    } else {
      OrPeel(x, Pow2(k));
      assert Pow2(k) / 2 == Pow2(k - 1) && Pow2(k) % 2 == 0;
      OrPow(x / 2, k - 1);
    }
  }

  /** Below digit `k` only the first operand has digits, so they pass
      through unchanged, and above it the OR acts on the quotients. */
  lemma {:induction false} OrShift(lo: nat, q1: nat, q2: nat, k: nat)
    requires lo < Pow2(k)
    ensures Or(lo + Pow2(k) * q1, Pow2(k) * q2) == lo + Pow2(k) * Or(q1, q2)
    decreases k
  {
    if k > 0 {
      var p := Pow2(k - 1);
      MulNat(p, q1);
      MulNat(p, q2);
      var a: nat, b: nat := lo + 2 * (p * q1), 2 * (p * q2);
      assert lo + Pow2(k) * q1 == a && Pow2(k) * q2 == b by {
        Twice(p, q1);
        Twice(p, q2);
      }
      assert lo / 2 < p;
      OrShift(lo / 2, q1, q2, k - 1);
      assert a / 2 == lo / 2 + p * q1 && b / 2 == p * q2 by {
        Halve(lo, p * q1);
        Halve(0, p * q2);
      }
      assert Or(a, b) == 2 * Or(a / 2, b / 2) + lo % 2 by {
        Halve(lo, p * q1);
        Halve(0, p * q2);
        OrPeel(a, b);
      }
      Twice(p, Or(q1, q2));
    }
  }

  lemma MulNat(p: nat, q: nat)
    ensures p * q >= 0
  {
  }

  lemma Twice(p: int, q: int)
    ensures (2 * p) * q == 2 * (p * q)
  {
  }

  /** Halving `lo + 2m` halves `lo` and keeps its lowest digit. */
  lemma Halve(lo: int, m: int)
    ensures (lo + 2 * m) / 2 == lo / 2 + m && (lo + 2 * m) % 2 == lo % 2
  {
  }

  /** Setting bit 19 of a 20-bit number. */
  lemma OrBit19(q: nat)
    requires q < 0x10_0000
    ensures Or(0x8_0000, q) == if q >= 0x8_0000 then q else q + 0x8_0000
  {
    OrComm(0x8_0000, q);
    Pow2Facts();
    OrPow(q, 19);
  }

  /** `OrShift` at the page boundary, digit 12. */
  lemma OrShift12(lo: nat, q1: nat, q2: nat)
    requires lo < 0x1000
    ensures Or(lo + 0x1000 * q1, 0x1000 * q2) == lo + 0x1000 * Or(q1, q2)
  {
    Pow2Facts();
    OrShift(lo, q1, q2, 12);
  }

  lemma {:induction false} Pow2Add(a: nat, b: nat)
    ensures Pow2(a + b) == Pow2(a) * Pow2(b)
    decreases a
  {
    if a > 0 {
      Pow2Add(a - 1, b);
    }
  }

  /** The powers of two the 32-bit page encodings use. */
  lemma Pow2Facts()
    ensures Pow2(12) == 0x1000
    ensures Pow2(19) == 0x8_0000
    ensures Pow2(20) == 0x10_0000
    ensures Pow2(31) == 0x8000_0000
    ensures Pow2(32) == 0x1_0000_0000
  {
    assert Pow2(7) == 0x80;
    assert Pow2(12) == 0x1000;
    Pow2Add(12, 7);
    Pow2Add(19, 12);
  }
}

=== FILE: handlers.dfy ===
/** The handler dispatch table `RWFT[5][2][128]`: for each of 128 slots, one
    read and one write callback per access width. Slots are handed out by a
    counter that only grows. A callback is modelled as a tag; what a device
    callback registered elsewhere does is not part of this model, while the
    built-in unmapped and default handlers are given their full effect. */
module Handlers {
  import opened Words

  /** Slots in each row of the table. */
  const SLOTS: nat := 128

  /** First index of `RWFT`: the 8/16/32/64/128-bit column. */
  datatype Width = W8 | W16 | W32 | W64 | W128

  /** Second index of `RWFT`: 0 for read, 1 for write. */
  datatype Dir = Read | Write

  datatype Port = Port(width: Width, dir: Dir)

  /** What one `RWFT` cell holds. */
  datatype Callback =
    | Null                  // a zeroed cell, or an argument left 0 at registration
    | Device(id: nat)       // a callback registered by another module
    | UnmappedV(saddr: u32) // vtlbUnmappedV*<saddr>
    | UnmappedP(saddr: u32) // vtlbUnmappedP*<saddr>
    | DefaultPhy            // vtlbDefaultPhy*

  /** The ten callbacks of one slot, in the argument order of registration. */
  datatype HandlerSet = HandlerSet(
    r8: Callback, r16: Callback, r32: Callback, r64: Callback, r128: Callback,
    w8: Callback, w16: Callback, w32: Callback, w64: Callback, w128: Callback)
  {
    function Get(p: Port): Callback
    {
      match p
      case Port(W8, Read) => r8
      case Port(W16, Read) => r16
      case Port(W32, Read) => r32
      case Port(W64, Read) => r64
      case Port(W128, Read) => r128
      case Port(W8, Write) => w8
      case Port(W16, Write) => w16
      case Port(W32, Write) => w32
      case Port(W64, Write) => w64
      case Port(W128, Write) => w128
    }
  }

  /** Two slots that agree on every port are the same slot. */
  lemma SameOnEveryPort(a: HandlerSet, b: HandlerSet)
    requires forall p :: a.Get(p) == b.Get(p)
    ensures a == b
  {
    assert a.Get(Port(W8, Read)) == b.Get(Port(W8, Read));
    assert a.Get(Port(W16, Read)) == b.Get(Port(W16, Read));
    assert a.Get(Port(W32, Read)) == b.Get(Port(W32, Read));
    assert a.Get(Port(W64, Read)) == b.Get(Port(W64, Read));
    assert a.Get(Port(W128, Read)) == b.Get(Port(W128, Read));
    assert a.Get(Port(W8, Write)) == b.Get(Port(W8, Write));
    assert a.Get(Port(W16, Write)) == b.Get(Port(W16, Write));
    assert a.Get(Port(W32, Write)) == b.Get(Port(W32, Write));
    assert a.Get(Port(W64, Write)) == b.Get(Port(W64, Write));
    assert a.Get(Port(W128, Write)) == b.Get(Port(W128, Write));
  }

  /** The same template instantiated for every width and direction. */
  function Uniform(cb: Callback): HandlerSet
  {
    HandlerSet(cb, cb, cb, cb, cb, cb, cb, cb, cb, cb)
  }

  /** A cell left 0 becomes the matching `vtlbDefaultPhy*` callback. */
  function OrDefault(cb: Callback): Callback
  {
    if cb.Null? then DefaultPhy else cb
  }

  /** The table together with `vtlbHandlerCount`. */
  datatype Registry = Registry(slots: seq<HandlerSet>, count: nat)
  {
    ghost predicate Valid()
    {
      |slots| == SLOTS && count <= SLOTS
    }
  }

  /** The table as `vtlb_Init` leaves it before registering anything:
      every cell zeroed and the counter at 0. */
  function Cleared(): (reg: Registry)
    ensures reg.Valid() && reg.count == 0
    ensures forall h, p :: 0 <= h < SLOTS ==> reg.slots[h].Get(p) == Null
  {
    Registry(seq(SLOTS, _ => Uniform(Null)), 0)
  }

  datatype Registered = Registered(reg: Registry, slot: nat)

  /** `vtlb_RegisterHandler`: take the counter's value as the new slot,
      advance the counter, and fill the slot's ten cells, substituting the
      default physical callback for every null argument. The table has 128
      slots and the code does not check the counter, so a caller must not
      register a 129th handler. */
  function RegisterHandler(reg: Registry, fns: HandlerSet): (r: Registered)
    requires reg.Valid() && reg.count < SLOTS
    ensures r.reg.Valid()
    ensures r.slot == reg.count && r.reg.count == reg.count + 1
    ensures forall p :: r.reg.slots[r.slot].Get(p) == OrDefault(fns.Get(p))
    ensures forall p :: !r.reg.slots[r.slot].Get(p).Null?
    ensures forall h :: 0 <= h < SLOTS && h != r.slot ==> r.reg.slots[h] == reg.slots[h]
  {
    var filled := HandlerSet(
      OrDefault(fns.r8), OrDefault(fns.r16), OrDefault(fns.r32), OrDefault(fns.r64), OrDefault(fns.r128),
      OrDefault(fns.w8), OrDefault(fns.w16), OrDefault(fns.w32), OrDefault(fns.w64), OrDefault(fns.w128));
    Registered(Registry(reg.slots[reg.count := filled], reg.count + 1), reg.count)
  }

  /** Two registrations in a row get consecutive slots, and the first
      slot's callbacks survive the second registration. */
  lemma RegisterTwice(reg: Registry, a: HandlerSet, b: HandlerSet)
    requires reg.Valid() && reg.count + 1 < SLOTS
    ensures var r1 := RegisterHandler(reg, a);
            var r2 := RegisterHandler(r1.reg, b);
            r1.slot < r2.slot && r2.slot == r1.slot + 1 &&
            r2.reg.slots[r1.slot] == r1.reg.slots[r1.slot]
  {
  }

  /** What a callback does when the access engine calls it. */
  datatype Effect =
    | TlbMiss(addr: u32, dir: Dir)         // vtlb_Miss: the CPU's TLB-miss exception
    | BusError(addr: u32, dir: Dir)        // vtlb_BusError: a bus-error report
    | DefaultAccess(addr: u32, port: Port) // vtlbDefaultPhy*: an unhandled-access report
    | DeviceCall(id: nat, port: Port, addr: u32)
    | NullCall(addr: u32)                  // a call through a zeroed cell

  /** The callback `cb`, sitting at `port`, called with address `paddr`.
      The unmapped handlers OR their template argument `saddr` back into
      the address before reporting it. */
  function Invoke(cb: Callback, port: Port, paddr: u32): (e: Effect)
    ensures cb.UnmappedV? ==> e == TlbMiss(BitOr(paddr, cb.saddr), port.dir)
    ensures cb.UnmappedP? ==> e == BusError(BitOr(paddr, cb.saddr), port.dir)
    ensures cb.Device? ==> e == DeviceCall(cb.id, port, paddr)
  {
    match cb
    case Null => NullCall(paddr)
    case Device(id) => DeviceCall(id, port, paddr)
    case UnmappedV(saddr) => TlbMiss(BitOr(paddr, saddr), port.dir)
    case UnmappedP(saddr) => BusError(BitOr(paddr, saddr), port.dir)
    case DefaultPhy => DefaultAccess(paddr, port)
  }

  datatype Reply = Value(v: nat) | NoValue

  /** All bits of a narrow read set: `-1` converted to the read's type. */
  function AllOnes(w: Width): nat
  {
    match w
    case W8 => 0xFF
    case W16 => 0xFFFF
    case _ => 0xFFFF_FFFF
  }

  /** The value a built-in callback hands back. The 8/16/32-bit reads
      return a value (0 for the unmapped handlers, all bits set for the
      default handler); the 64/128-bit reads leave the caller's buffer as
      it was, and writes return nothing. A device callback's value is not
      part of this model. */
  function BuiltinReply(cb: Callback, port: Port): (r: Reply)
    requires cb.UnmappedV? || cb.UnmappedP? || cb.DefaultPhy?
    ensures r.Value? <==> port.dir == Read && !port.width.W64? && !port.width.W128?
    ensures r.Value? && !cb.DefaultPhy? ==> r.v == 0
    ensures r.Value? && cb.DefaultPhy? ==> r.v == AllOnes(port.width)
  {
    match port
    case Port(_, Write) => NoValue
    case Port(W64, Read) => NoValue
    case Port(W128, Read) => NoValue
    case Port(w, Read) => if cb.DefaultPhy? then Value(AllOnes(w)) else Value(0)
  }

  /** The callback sets `vtlb_Init` registers, in its order. */
  function UnmappedVirtSet(top: bool): HandlerSet
  {
    Uniform(UnmappedV(if top then SIGN else 0))
  }

  function UnmappedPhysSet(top: bool): HandlerSet
  {
    Uniform(UnmappedP(if top then SIGN else 0))
  }

  /** The unmapped handlers report the address they were given with the
      top bit forced to what their slot stands for: given an address whose
      top bit is clear, the slot for the upper half reports it with the bit
      set, and the slot for the lower half reports it unchanged. */
  lemma UnmappedRestoresTopBit(top: bool, port: Port, paddr: u32)
    requires !IsNeg(paddr)
    ensures Invoke(UnmappedVirtSet(top).Get(port), port, paddr)
              == TlbMiss(if top then paddr + SIGN else paddr, port.dir)
    ensures Invoke(UnmappedPhysSet(top).Get(port), port, paddr)
              == BusError(if top then paddr + SIGN else paddr, port.dir)
  {
    OrSign(paddr);
    OrZero(paddr);
  }
}

=== FILE: physmap.dfy ===
/** The physical page table `pmap`: one 32-bit entry per 4 KiB page of the
    window [0, 0x20000000). An entry whose top bit is clear is the host
    address of the page's first byte; one whose top bit is set is
    `slot | 0x80000000`, a page served by handler `slot`. The table is a
    sequence here, and each mapping call returns the updated sequence. */
module PhysMap {
  import opened Words
  import Arith

  /** Bytes covered by the table, and its number of entries. */
  const PMAP_SZ: u32 := 0x2000_0000
  const PMAP_ITEMS: nat := 0x2_0000

  /** Page `i` lies in the byte range [start, start + size) of page-aligned
      bounds. */
  predicate InRange(i: int, start: int, size: int)
  {
    start / PAGE_SIZE <= i < (start + size) / PAGE_SIZE
  }

  /** `handler | 0x80000000`, the entry of a handler-mapped page. */
  function HandlerEntry(h: u32): (r: u32)
    ensures IsNeg(r)
    ensures h < SIGN ==> r == h + SIGN
    ensures h < 256 ==> LowByte(r) == h
  {
    OrSign(h);
    BitOr(h, SIGN)
  }

  /** `vtlb_MapHandler`: every page of [start, start + size) becomes a
      page of `handler`; every other entry is left as it was. The start and
      size must be page-aligned and the size positive; the range must lie
      inside the table. */
  method MapHandler(pmap: seq<u32>, handler: u32, start: u32, size: u32) returns (pmap': seq<u32>)
    requires |pmap| == PMAP_ITEMS
    requires Aligned(start) && Aligned(size) && size > 0
    requires start + size <= PMAP_SZ
    ensures |pmap'| == PMAP_ITEMS
    ensures forall i :: 0 <= i < PMAP_ITEMS ==>
              pmap'[i] == if InRange(i, start, size) then HandlerEntry(handler) else pmap[i]
  {
    var value := HandlerEntry(handler);
    pmap' := pmap;
    var a: u32 := start;
    var n: u32 := size;
    while n > 0
      invariant |pmap'| == PMAP_ITEMS
      invariant Aligned(n) && n <= size && a == start + (size - n)
      invariant forall i :: 0 <= i < PMAP_ITEMS ==>
                  pmap'[i] == if InRange(i, start, size - n) then value else pmap[i]
    {
      pmap' := pmap'[Page(a) := value];
      // start + size stays inside the window, so these never wrap
      a := a + PAGE_SIZE;
      n := n - PAGE_SIZE;
    }
  }

  /** `blocksize == 0` stands for one block as long as the whole range. */
  function BlockSize(size: u32, blocksize: u32): u32
  {
    if blocksize == 0 then size else blocksize
  }

  /** Every page of [start, start + size) holds `base` advanced by the
      page's distance from `start`, taken modulo the block size, with the
      32-bit wrap-around of the code's pointer arithmetic. */
  ghost predicate HoldsBlock(pmap: seq<u32>, base: u32, start: u32, size: u32, bs: u32)
    requires |pmap| == PMAP_ITEMS && bs > 0
  {
    forall i :: 0 <= i < PMAP_ITEMS && InRange(i, start, size) ==>
      pmap[i] == Add(base, (i * PAGE_SIZE - start) % bs)
  }

  /** The first `done` bytes of the block at `at` point at consecutive host
      pages from `base`; every other entry is as in `pmap0`. */
  ghost predicate BlockPrefix(pmap: seq<u32>, pmap0: seq<u32>, base: u32, at: u32, done: int)
    requires |pmap| == PMAP_ITEMS && |pmap0| == PMAP_ITEMS
    requires Aligned(at) && 0 <= done && at + done <= PMAP_SZ
  {
    forall i :: 0 <= i < PMAP_ITEMS ==>
      pmap[i] == if InRange(i, at, done) then Add(base, i * PAGE_SIZE - at) else pmap0[i]
  }

  /** Writing the next page's pointer extends the filled prefix by a page. */
  lemma BlockPrefixStep(pmap: seq<u32>, pmap0: seq<u32>, base: u32, at: u32, done: int)
    requires |pmap| == PMAP_ITEMS && |pmap0| == PMAP_ITEMS
    requires Aligned(at) && 0 <= done && done % PAGE_SIZE == 0 && at + done + PAGE_SIZE <= PMAP_SZ
    requires BlockPrefix(pmap, pmap0, base, at, done)
    ensures BlockPrefix(pmap[Page(at + done) := Add(base, done)], pmap0, base, at, done + PAGE_SIZE)
  {
    assert Page(at + done) * PAGE_SIZE == at + done;
  }

  /** The inner loop of `vtlb_MapBlock`: one block of `bs` bytes at `at`,
      each page pointing at the next 4 KiB of host memory from `base`. */
  method FillBlock(pmap: seq<u32>, base: u32, at: u32, bs: u32) returns (pmap': seq<u32>)
    requires |pmap| == PMAP_ITEMS
    requires Aligned(at) && Aligned(bs) && bs > 0 && at + bs <= PMAP_SZ
    ensures |pmap'| == PMAP_ITEMS
    ensures forall i :: 0 <= i < PMAP_ITEMS ==>
              pmap'[i] == if InRange(i, at, bs) then Add(base, i * PAGE_SIZE - at) else pmap[i]
  {
    pmap' := pmap;
    var a: u32 := at;
    var blocksz: u32 := bs;
    var ptr: u32 := base;
    while blocksz > 0
      invariant |pmap'| == PMAP_ITEMS
      invariant Aligned(blocksz) && blocksz <= bs && a == at + (bs - blocksz)
      invariant ptr == Add(base, bs - blocksz)
      invariant BlockPrefix(pmap', pmap, base, at, bs - blocksz)
    {
      BlockPrefixStep(pmap', pmap, base, at, bs - blocksz);
      pmap' := pmap'[Page(a) := ptr];
      WrapAdd(base + (bs - blocksz), PAGE_SIZE);
      a := a + PAGE_SIZE;
      ptr := Add(ptr, PAGE_SIZE);
      blocksz := blocksz - PAGE_SIZE;
    }
  }

  lemma AlignedSum(a: int, b: int)
    requires a % PAGE_SIZE == 0 && b % PAGE_SIZE == 0
    ensures (a + b) % PAGE_SIZE == 0
  {
  }

  /** The first `done` bytes of the range hold their repeating block
      pointers, and every other entry is as in `pmap0`. */
  ghost predicate FilledUpTo(pmap: seq<u32>, pmap0: seq<u32>, base: u32, start: u32, done: int, bs: u32)
    requires |pmap| == PMAP_ITEMS && |pmap0| == PMAP_ITEMS && bs > 0
  {
    forall i :: 0 <= i < PMAP_ITEMS ==>
      pmap[i] == if InRange(i, start, done) then Add(base, (i * PAGE_SIZE - start) % bs) else pmap0[i]
  }

  /** One more block laid down at a whole number of blocks from the start
      continues the repeating pattern. */
  lemma BlockStep(p1: seq<u32>, p2: seq<u32>, pmap0: seq<u32>, base: u32, start: u32, done: int, bs: u32)
    requires |p1| == PMAP_ITEMS && |p2| == PMAP_ITEMS && |pmap0| == PMAP_ITEMS && bs > 0
    requires done >= 0 && done % bs == 0
    requires Aligned(start) && (start + done) % PAGE_SIZE == 0 && bs % PAGE_SIZE == 0
    requires start + done + bs <= PMAP_SZ
    requires FilledUpTo(p1, pmap0, base, start, done, bs)
    requires forall i :: 0 <= i < PMAP_ITEMS ==>
               p2[i] == if InRange(i, start + done, bs) then Add(base, i * PAGE_SIZE - (start + done)) else p1[i]
    ensures FilledUpTo(p2, pmap0, base, start, done + bs, bs)
  {
    forall i | 0 <= i < PMAP_ITEMS && InRange(i, start + done, bs)
      ensures (i * PAGE_SIZE - start) % bs == i * PAGE_SIZE - (start + done)
    {
      Arith.ModWithinPeriod(done, bs, i * PAGE_SIZE - (start + done));
    }
  }

  /** `vtlb_MapBlock`: lay `bs` bytes of host memory at `base` over
      [start, start + size) again and again, one block after the other.
      Start, size and block size must be page-aligned and positive, and the
      size a whole number of blocks; that is what lets the inner loop end
      exactly where the outer one does. */
  method MapBlock(pmap: seq<u32>, base: u32, start: u32, size: u32, blocksize: u32)
    returns (pmap': seq<u32>)
    requires |pmap| == PMAP_ITEMS
    requires Aligned(start) && Aligned(size) && size > 0
    requires Aligned(BlockSize(size, blocksize)) && BlockSize(size, blocksize) > 0
    requires size % BlockSize(size, blocksize) == 0
    requires start + size <= PMAP_SZ
    ensures |pmap'| == PMAP_ITEMS
    ensures HoldsBlock(pmap', base, start, size, BlockSize(size, blocksize))
    ensures forall i :: 0 <= i < PMAP_ITEMS && !InRange(i, start, size) ==> pmap'[i] == pmap[i]
  {
    var bs := BlockSize(size, blocksize);
    pmap' := pmap;
    var a: u32 := start;
    var n: u32 := size;
    while n > 0
      invariant |pmap'| == PMAP_ITEMS
      invariant n <= size && (size - n) % bs == 0 && n % bs == 0
      invariant Aligned(a) && a == start + (size - n)
      invariant FilledUpTo(pmap', pmap, base, start, size - n, bs)
    {
      ghost var before := pmap';
      Arith.MultipleAtLeast(n, bs);
      pmap' := FillBlock(pmap', base, a, bs);
      BlockStep(before, pmap', pmap, base, start, size - n, bs);
      Arith.ModAddPeriod(size - n, bs);
      AlignedSum(a, bs);
      a := a + bs;
      n := n - bs;
    }
  }

  /** The page `Mirror` copies onto destination page `i`. */
  function MirrorSource(i: int, newRegion: u32, start: u32): int
  {
    i - Page(start) + Page(newRegion)
  }

  /** What `Mirror` leaves: pages outside the destination are untouched,
      and destination page `i` holds its source page's entry, read after
      the destination pages below `i` were written. */
  ghost predicate Mirrored(pmap: seq<u32>, pmap': seq<u32>, newRegion: u32, start: u32, size: u32)
    requires |pmap| == PMAP_ITEMS && |pmap'| == PMAP_ITEMS
    requires Aligned(newRegion) && Aligned(start) && newRegion + size <= PMAP_SZ
  {
    && (forall i :: 0 <= i < PMAP_ITEMS && !InRange(i, start, size) ==> pmap'[i] == pmap[i])
    && (forall i :: 0 <= i < PMAP_ITEMS && InRange(i, start, size) ==>
          var src := MirrorSource(i, newRegion, start);
          pmap'[i] == if Page(start) <= src < i then pmap'[src] else pmap[src])
  }

  /** `vtlb_Mirror`: copy, page by page and in ascending order, the entries
      of [newRegion, newRegion + size) onto [start, start + size). Each
      source entry is read when its turn comes, so a source page that an
      earlier step already overwrote passes on its new value. All three
      arguments must be page-aligned and the size positive; both ranges
      must lie inside the table. */
  method Mirror(pmap: seq<u32>, newRegion: u32, start: u32, size: u32) returns (pmap': seq<u32>)
    requires |pmap| == PMAP_ITEMS
    requires Aligned(newRegion) && Aligned(start) && Aligned(size) && size > 0
    requires start + size <= PMAP_SZ && newRegion + size <= PMAP_SZ
    ensures |pmap'| == PMAP_ITEMS
    ensures Mirrored(pmap, pmap', newRegion, start, size)
  {
    pmap' := pmap;
    var a: u32 := start;
    var b: u32 := newRegion;
    var n: u32 := size;
    while n > 0
      invariant |pmap'| == PMAP_ITEMS
      invariant Aligned(n) && n <= size && a == start + (size - n) && b == newRegion + (size - n)
      invariant forall i :: 0 <= i < PMAP_ITEMS && !InRange(i, start, size - n) ==> pmap'[i] == pmap[i]
      invariant forall i :: 0 <= i < PMAP_ITEMS && InRange(i, start, size - n) ==>
                  var src := MirrorSource(i, newRegion, start);
                  pmap'[i] == if Page(start) <= src < i then pmap'[src] else pmap[src]
    {
      pmap' := pmap'[Page(a) := pmap'[Page(b)]];
      a := a + PAGE_SIZE;
      b := b + PAGE_SIZE;
      n := n - PAGE_SIZE;
    }
  }

  /** `vtlb_GetPhyPtr`: the host address behind a physical address, or 0
      when the address is outside the window or its page is handler-mapped. */
  function GetPhyPtr(pmap: seq<u32>, paddr: u32): (r: u32)
    requires |pmap| == PMAP_ITEMS
    ensures paddr >= PMAP_SZ ==> r == 0
    ensures paddr < PMAP_SZ && IsNeg(pmap[Page(paddr)]) ==> r == 0
    ensures paddr < PMAP_SZ && !IsNeg(pmap[Page(paddr)]) ==> r == pmap[Page(paddr)] + Offset(paddr)
  {
    if paddr >= PMAP_SZ || IsNeg(pmap[Page(paddr)]) then 0
    else pmap[Page(paddr)] + Offset(paddr)
  }

  /** The remainder of a page-aligned distance by a page-aligned block size
      is itself page-aligned. */
  lemma AlignedRemainder(x: int, bs: int)
    requires bs > 0 && bs % PAGE_SIZE == 0 && x % PAGE_SIZE == 0
    ensures (x % bs) % PAGE_SIZE == 0
  {
    var q := x / bs;
    var m := bs * q;
    assert x == m + x % bs;
    Arith.MultipleOfMultiple(bs, PAGE_SIZE, q);
    var y := m / PAGE_SIZE;
    var z := x / PAGE_SIZE;
    assert x % bs == PAGE_SIZE * (z - y);
    Arith.ModUnique(x % bs, PAGE_SIZE, z - y, 0);
  }

  /** The distance of an address from an aligned start, modulo an aligned
      block size, is the distance of its page plus the offset in the page. */
  lemma BlockOffset(p: int, start: int, bs: int)
    requires bs > 0 && bs % PAGE_SIZE == 0 && start % PAGE_SIZE == 0 && p >= start
    ensures (p - start) % bs == ((p / PAGE_SIZE) * PAGE_SIZE - start) % bs + p % PAGE_SIZE
  {
    var o := p % PAGE_SIZE;
    var x := (p / PAGE_SIZE) * PAGE_SIZE - start;
    assert p - start == x + o && x % PAGE_SIZE == 0;
    var r := x % bs;
    AlignedRemainder(x, bs);
    assert r + o < bs;
    assert p - start == bs * (x / bs) + (r + o);
    Arith.ModUnique(p - start, bs, x / bs, r + o);
  }

  /** After `MapBlock`, the page of any address in the range holds the
      block base advanced by the page's distance from the start modulo the
      block size. The physical-pointer lookup of the address is that entry
      plus the offset, which is the base advanced by the address's own
      distance; when the entry has its top bit set (a base so high that it
      looks like a handler entry) the lookup gives 0 instead. */
  lemma BlockPointer(pmap: seq<u32>, base: u32, start: u32, size: u32, bs: u32, paddr: u32)
    requires |pmap| == PMAP_ITEMS && bs > 0 && Aligned(bs) && Aligned(start) && Aligned(size)
    requires start + size <= PMAP_SZ
    requires HoldsBlock(pmap, base, start, size, bs)
    requires start <= paddr < start + size
    ensures pmap[Page(paddr)] == Add(base, (Page(paddr) * PAGE_SIZE - start) % bs)
    ensures GetPhyPtr(pmap, paddr) == if IsNeg(pmap[Page(paddr)]) then 0 else Add(base, (paddr - start) % bs)
  {
    var i := Page(paddr);
    assert paddr == PAGE_SIZE * i + Offset(paddr);
    assert InRange(i, start, size);
    var r := (i * PAGE_SIZE - start) % bs;
    var m := (paddr - start) % bs;
    assert pmap[i] == Add(base, r) by {
      HoldsAt(pmap, base, start, size, bs, i);
    }
    if !IsNeg(pmap[i]) {
      assert m == r + Offset(paddr) by {
        BlockOffset(paddr, start, bs);
      }
      PointerSum(pmap[i], base, r, Offset(paddr), m);
    }
  }

  lemma HoldsAt(pmap: seq<u32>, base: u32, start: u32, size: u32, bs: u32, i: int)
    requires |pmap| == PMAP_ITEMS && bs > 0
    requires HoldsBlock(pmap, base, start, size, bs)
    requires 0 <= i < PMAP_ITEMS && InRange(i, start, size)
    ensures pmap[i] == Add(base, (i * PAGE_SIZE - start) % bs)
  {
  }

  /** A page's host address plus an offset that keeps it in the lower half
      of the address space is the wrapped sum of the base and the whole
      distance. */
  lemma PointerSum(e: u32, base: u32, r: int, o: int, m: int)
    requires e == Wrap(base + r) && !IsNeg(e) && 0 <= o < PAGE_SIZE && m == r + o
    ensures e + o == Wrap(base + m)
  {
  }

  /** After a `Mirror` between ranges that do not overlap, or onto a range
      that starts no higher than its source, every destination page holds
      what the source page held before, and the source pages are intact. */
  lemma MirrorCopies(pmap: seq<u32>, pmap': seq<u32>, newRegion: u32, start: u32, size: u32, i: int)
    requires |pmap| == PMAP_ITEMS && |pmap'| == PMAP_ITEMS
    requires Aligned(newRegion) && Aligned(start)
    requires start + size <= PMAP_SZ && newRegion + size <= PMAP_SZ
    requires Mirrored(pmap, pmap', newRegion, start, size)
    requires start <= newRegion || newRegion + size <= start
    requires 0 <= i < PMAP_ITEMS && InRange(i, start, size)
    ensures pmap'[i] == pmap[MirrorSource(i, newRegion, start)]
  {
  }

  /** Mirror equivalence: after a `Mirror` of disjoint ranges, looking up
      `start + x` gives what looking up `newRegion + x` gave before, and the
      source range still gives the same answers. */
  lemma MirrorAliases(pmap: seq<u32>, pmap': seq<u32>, newRegion: u32, start: u32, size: u32, x: u32)
    requires |pmap| == PMAP_ITEMS && |pmap'| == PMAP_ITEMS
    requires Aligned(newRegion) && Aligned(start) && Aligned(size)
    requires start + size <= PMAP_SZ && newRegion + size <= PMAP_SZ
    requires Mirrored(pmap, pmap', newRegion, start, size)
    requires newRegion + size <= start || start + size <= newRegion
    requires x < size
    ensures GetPhyPtr(pmap', start + x) == GetPhyPtr(pmap, newRegion + x)
    ensures GetPhyPtr(pmap', newRegion + x) == GetPhyPtr(pmap, newRegion + x)
  {
    var i := Page(start + x);
    assert InRange(i, start, size);
    MirrorCopies(pmap, pmap', newRegion, start, size, i);
    assert MirrorSource(i, newRegion, start) == Page(newRegion + x);
    assert !InRange(Page(newRegion + x), start, size);
  }
}

=== FILE: translate.dfy ===
/** One memory access through the virtual table, as `MemOp_r0`, `MemOp_r1`,
    `MemOp_w0` and `MemOp_w1` perform it. The entry of the accessed page is
    added to the address; if the sum read as an `s32` is not negative it is
    the host address to load from or store to. Otherwise the low byte of
    the entry names the handler slot, and the physical address handed to
    the handler is the sum with that byte taken off and the top bit
    flipped. */
module Translate {
  import opened Words
  import opened Handlers
  import Arith
  import VirtMap

  /** Where an access goes: host memory, or a handler slot with the
      physical address it is called with. */
  datatype Route = Direct(host: u32) | Slow(slot: u32, paddr: u32)

  /** The decision on entry `vmv` for address `addr`: `ppf = addr + vmv`,
      the fast path when `ppf` is not negative, otherwise slot `(u8)vmv`
      and address `ppf - slot + 0x80000000`. */
  function Decode(vmv: u32, addr: u32): (r: Route)
    ensures r.Direct? <==> !IsNeg(Add(addr, vmv))
    ensures r.Direct? ==> r.host == Add(addr, vmv)
    ensures r.Slow? ==> r.slot < 256 && r.slot == LowByte(vmv)
  {
    var ppf := Add(addr, vmv);
    if !IsNeg(ppf) then Direct(ppf)
    else
      var hand := LowByte(vmv);
      Slow(hand, Add(Sub(ppf, hand), SIGN))
  }

  /** The host addresses a fast-path access touches: one, or for a 128-bit
      access a second one 8 bytes further on. */
  function Transfers(w: Width, host: u32): (t: seq<u32>)
    ensures |t| == (if w.W128? then 2 else 1) && t[0] == host
    ensures w.W128? ==> t[1] == Add(host, 8)
  {
    if w.W128? then [host, Add(host, 8)] else [host]
  }

  /** Where an access ends up: the host addresses it loads from or stores
      to, or the table slot whose handler for the access's port is called
      with a physical address. A slot past the end of the 128-slot table is
      reported as `Stray`: the code would index past `RWFT`. */
  datatype Outcome =
    | Host(at: seq<u32>)
    | Handler(slot: nat, paddr: u32)
    | Stray(slot: nat, paddr: u32)

  /** `vtlb_memRead*` / `vtlb_memWrite*`: an access of width `w` to virtual
      address `addr`. Reads and writes take the same route; only the
      callback picked from the slot differs. */
  function Access(vmap: seq<u32>, w: Width, addr: u32): (o: Outcome)
    requires |vmap| == VirtMap.VMAP_ITEMS
    ensures o.Host? <==> Decode(vmap[Page(addr)], addr).Direct?
    ensures o.Host? ==> o.at == Transfers(w, Add(addr, vmap[Page(addr)]))
    ensures !o.Host? ==> o.slot == LowByte(vmap[Page(addr)])
    ensures o.Handler? <==> !o.Host? && o.slot < SLOTS
  {
    match Decode(vmap[Page(addr)], addr)
    case Direct(host) => Host(Transfers(w, host))
    case Slow(h, paddr) => if h < SLOTS then Handler(h, paddr) else Stray(h, paddr)
  }

  /** What the handler an access reaches does: the callback of its slot for
      the access's port, called with the physical address. */
  function Call(reg: Registry, port: Port, o: Outcome): (e: Effect)
    requires reg.Valid() && o.Handler? && o.slot < SLOTS
    ensures reg.slots[o.slot].Get(port).UnmappedV? ==> e.TlbMiss?
    ensures reg.slots[o.slot].Get(port).UnmappedP? ==> e.BusError?
  {
    Invoke(reg.slots[o.slot].Get(port), port, o.paddr)
  }

  /** An entry stored as `t - page` for a host target `t` gives, for every
      address in the page, the target plus the offset, as long as that
      stays in the lower half of the address space. */
  lemma DirectRoundTrip(t: u32, addr: u32)
    requires t + Offset(addr) < SIGN
    ensures Decode(Sub(t, VirtMap.PageAddr(Page(addr))), addr) == Direct(t + Offset(addr))
  {
    PageOfAddr(addr);
    EntryPlusAddr(t, VirtMap.PageAddr(Page(addr)), addr);
  }

  /** An access through an entry stored as `t - page` for a host target
      `t` reaches host memory at `t` plus the offset. */
  lemma AccessDirect(vmap: seq<u32>, w: Width, addr: u32, t: u32)
    requires |vmap| == VirtMap.VMAP_ITEMS
    requires vmap[Page(addr)] == Sub(t, VirtMap.PageAddr(Page(addr))) && t + Offset(addr) < SIGN
    ensures Access(vmap, w, addr) == Host(Transfers(w, t + Offset(addr)))
  {
    DirectRoundTrip(t, addr);
  }

  /** An access through an entry stored as `h + (a | 0x80000000) - page`
      reaches the handler in slot `h` with the physical address `a` plus
      the offset, top bit cleared. */
  lemma AccessHandler(vmap: seq<u32>, w: Width, addr: u32, h: u32, a: u32)
    requires |vmap| == VirtMap.VMAP_ITEMS
    requires h < SLOTS && Aligned(a) && h + SetSign(a) + Offset(addr) < TWO32
    requires vmap[Page(addr)] == Sub(h + SetSign(a), VirtMap.PageAddr(Page(addr)))
    ensures Access(vmap, w, addr) == Handler(h, ClearSign(a) + Offset(addr))
  {
    HandlerRoundTrip(h, a, addr);
  }

  /** The start of an address's page. */
  lemma PageOfAddr(addr: u32)
    ensures VirtMap.PageAddr(Page(addr)) == addr - Offset(addr)
    ensures VirtMap.PageAddr(Page(addr)) % 256 == 0
  {
    Arith.ModUnique(Page(addr), VirtMap.VMAP_ITEMS, 0, Page(addr));
    assert addr == PAGE_SIZE * Page(addr) + Offset(addr);
    Arith.MultipleOfMultiple(PAGE_SIZE, 256, Page(addr));
  }

  /** Adding an address to `t - base`, where `base` is the start of the
      address's page, gives `t` plus the offset, modulo 2^32. */
  lemma EntryPlusAddr(t: u32, base: u32, addr: u32)
    requires base == addr - Offset(addr)
    ensures Add(addr, Sub(t, base)) == Wrap(t + Offset(addr))
  {
    WrapAdd(t - base, addr);
  }

  /** A handler target `h + (a | 0x80000000)`, stored as `target - page`,
      gives for every address in the page the slot `h` and the physical
      address `a` with its top bit cleared, plus the offset, as long as the
      target plus the offset does not pass 2^32. */
  lemma HandlerRoundTrip(h: u32, a: u32, addr: u32)
    requires h < 256 && Aligned(a)
    requires h + SetSign(a) + Offset(addr) < TWO32
    ensures Decode(Sub(h + SetSign(a), VirtMap.PageAddr(Page(addr))), addr) == Slow(h, ClearSign(a) + Offset(addr))
  {
    var t := h + SetSign(a);
    var off := Offset(addr);
    EntrySum(t, addr);
    EntryLowByte(h, a, addr);
    FlipTopBit(a, off, h);
    DecodeSlow(Sub(t, VirtMap.PageAddr(Page(addr))), addr, t + off, h, SetSign(a) + off, ClearSign(a) + off);
  }

  /** Adding an address to the entry `t - page` gives back `t` plus the
      offset, when that does not pass 2^32. */
  lemma EntrySum(t: u32, addr: u32)
    requires t + Offset(addr) < TWO32
    ensures Add(addr, Sub(t, VirtMap.PageAddr(Page(addr)))) == t + Offset(addr)
  {
    PageOfAddr(addr);
    EntryPlusAddr(t, VirtMap.PageAddr(Page(addr)), addr);
  }

  /** The low byte of a handler entry is the handler's slot. */
  lemma EntryLowByte(h: u32, a: u32, addr: u32)
    requires h < 256 && Aligned(a) && h + SetSign(a) < TWO32
    ensures LowByte(Sub(h + SetSign(a), VirtMap.PageAddr(Page(addr)))) == h
  {
    PageOfAddr(addr);
    assert SetSign(a) % PAGE_SIZE == 0;
    LowByteOfEntry(h, SetSign(a), VirtMap.PageAddr(Page(addr)));
  }

  /** The slow-path decision, read off from the intermediate values. */
  lemma DecodeSlow(vmv: u32, addr: u32, ppf: u32, hand: u32, off: u32, paddr: u32)
    requires ppf == Add(addr, vmv) && IsNeg(ppf)
    requires hand == LowByte(vmv) && off == Sub(ppf, hand) && paddr == Add(off, SIGN)
    ensures Decode(vmv, addr) == Slow(hand, paddr)
  {
  }

  /** Adding `0x80000000` to a top-bit-set page address plus an offset
      clears the top bit again. */
  lemma FlipTopBit(a: u32, off: nat, h: nat)
    requires Aligned(a) && off < PAGE_SIZE && SetSign(a) + off + h < TWO32
    ensures Add(SetSign(a) + off, SIGN) == ClearSign(a) + off
    ensures Sub(SetSign(a) + off + h, h) == SetSign(a) + off
  {
  }

  /** The low byte of `h + s - base` is `h` when `s` and `base` are whole
      pages: the subtraction, wrap-around included, only moves digits
      above the low byte. */
  lemma LowByteOfEntry(h: u32, s: u32, base: u32)
    requires h < 256 && s % PAGE_SIZE == 0 && base % 256 == 0 && h + s < TWO32
    ensures LowByte(Sub(h + s, base)) == h
  {
    var d := h + s - base;
    var w := Wrap(d);
    var c := if d < 0 then 1 else 0;
    assert w == d + c * TWO32 by {
      if d < 0 {
        Arith.ModUnique(d, TWO32, -1, d + TWO32);
      } else {
        Arith.ModUnique(d, TWO32, 0, d);
      }
    }
    var sq := 16 * (s / PAGE_SIZE);
    var bq := base / 256;
    assert s == 256 * sq && base == 256 * bq;
    var q := sq - bq + c * 0x100_0000;
    assert w == 256 * q + h;
    Arith.ModUnique(w, 256, q, h);
  }

  /** The other side of `HandlerRoundTrip`: when the target plus the offset
      does pass 2^32 (a physical page at `0x7FFFF000` or `0xFFFFF000` and
      an offset of at least `4096 - h`), the sum wraps to a small
      non-negative value and the access takes the fast path to that host
      address instead of calling the handler. */
  lemma HandlerWraps(h: u32, a: u32, addr: u32)
    requires h < 256 && Aligned(a)
    requires h + SetSign(a) + Offset(addr) >= TWO32
    ensures SetSign(a) == 0xFFFF_F000
    ensures Decode(Sub(h + SetSign(a), VirtMap.PageAddr(Page(addr))), addr)
              == Direct(h + SetSign(a) + Offset(addr) - TWO32)
  {
    var t := h + SetSign(a);
    assert a == PAGE_SIZE * Page(a);
    PageOfAddr(addr);
    EntryPlusAddr(t, VirtMap.PageAddr(Page(addr)), addr);
    Arith.ModUnique(t + Offset(addr), TWO32, 1, t + Offset(addr) - TWO32);
  }

  /** The generated code's slow path computes the handler address as
      `ppf - hand - 0x80000000` where the interpreter adds `0x80000000`;
      modulo 2^32 the two agree. */
  lemma SlowPathSubtractAgrees(vmv: u32, addr: u32)
    requires IsNeg(Add(addr, vmv))
    ensures Decode(vmv, addr).paddr == Sub(Sub(Add(addr, vmv), LowByte(vmv)), SIGN)
  {
    var x := Sub(Add(addr, vmv), LowByte(vmv));
    assert x + SIGN == (x - SIGN) + TWO32;
  }
}

=== FILE: virtmap.dfy ===
/** The virtual page table `vmap`: one 32-bit entry per 4 KiB page of the
    whole 32-bit virtual address space. An entry is stored as
    `target - vaddr`, the difference between what the page should resolve
    to and the page's own address, so that adding the accessed address to
    the entry yields the target plus the offset in the page. A target whose
    top bit is clear is a host address; one whose top bit is set is a
    handler slot in the low byte with the (top-bit-set) physical page
    address above it. The three routines below walk the virtual range one
    page at a time with 32-bit wrap-around, so a range that runs past
    0xFFFFF000 continues at page 0. */
module VirtMap {
  import opened Words
  import Arith
  import PhysMap

  const VMAP_ITEMS: nat := 0x10_0000

  /** The handler slots `vtlb_Init` registers for unmapped virtual pages
      (lower and upper half of the address space) and for physical
      addresses outside the physical window (lower and upper half). */
  datatype Reserved = Reserved(virt0: u32, virt1: u32, phys0: u32, phys1: u32)

  /** The number of pages from page `first` forward to page `j`, counting
      on round the top of the address space. */
  function Dist(j: int, first: int): nat
  {
    (j - first) % VMAP_ITEMS
  }

  /** Page `j` is one of the `sz / 4096` pages a walk from `vaddr` visits. */
  predicate Covered(j: int, vaddr: u32, sz: u32)
  {
    Dist(j, Page(vaddr)) < sz / PAGE_SIZE
  }

  /** The address as far past `base` as page `j` is past the page of
      `vaddr`, with the wrap-around of a `u32` that is stepped along with
      the virtual address. */
  function Along(base: u32, j: int, vaddr: u32): u32
  {
    Wrap(base + Dist(j, Page(vaddr)) * PAGE_SIZE)
  }

  /** A walk that has visited `k` pages from `first` covers one page more
      after visiting `(first + k) % 2^20`, and no page twice. */
  lemma DistStep(first: int, k: int)
    requires 0 <= first < VMAP_ITEMS && 0 <= k < VMAP_ITEMS
    ensures Dist((first + k) % VMAP_ITEMS, first) == k
    ensures forall j :: 0 <= j < VMAP_ITEMS ==>
              (Dist(j, first) < k + 1 <==> Dist(j, first) < k || j == (first + k) % VMAP_ITEMS)
  {
    var j0 := (first + k) % VMAP_ITEMS;
    var q0 := (first + k) / VMAP_ITEMS;
    Arith.ModUnique(j0 - first, VMAP_ITEMS, -q0, k);
    forall j | 0 <= j < VMAP_ITEMS
      ensures Dist(j, first) == k <==> j == j0
    {
      if Dist(j, first) == k {
        var q := (j - first) / VMAP_ITEMS;
        Arith.ModUnique(first + k, VMAP_ITEMS, -q, j);
      }
    }
  }

  /** The first `k` pages of a walk from page `first` hold `f` of their page
      number, and every other page is as in `vm0`. */
  ghost predicate Walked(vm: seq<u32>, vm0: seq<u32>, first: int, k: int, f: int -> u32)
    requires |vm| == VMAP_ITEMS && |vm0| == VMAP_ITEMS
  {
    forall j :: 0 <= j < VMAP_ITEMS ==> vm[j] == if Dist(j, first) < k then f(j) else vm0[j]
  }

  /** Writing the walk's next page extends what has been walked by one page. */
  lemma WalkStep(vm: seq<u32>, vm0: seq<u32>, first: int, k: int, f: int -> u32, at: int, v: u32)
    requires |vm| == VMAP_ITEMS && |vm0| == VMAP_ITEMS
    requires 0 <= first < VMAP_ITEMS && 0 <= k < VMAP_ITEMS
    requires Walked(vm, vm0, first, k, f)
    requires at == (first + k) % VMAP_ITEMS && v == f(at)
    ensures Walked(vm[at := v], vm0, first, k + 1, f)
  {
    DistStep(first, k);
  }

  /** The page a walk writes at step `k` is `k` pages from its first page,
      and its address is the walk's running address. */
  lemma WalkTarget(first: int, k: int)
    requires 0 <= first < VMAP_ITEMS && 0 <= k < VMAP_ITEMS
    ensures Dist((first + k) % VMAP_ITEMS, first) == k
    ensures PageAddr((first + k) % VMAP_ITEMS) == PageAddr(first + k)
  {
    DistStep(first, k);
  }

  /** One step of a walk of `sz` bytes from `vaddr` that has `n` bytes
      and `k` pages behind it: the running address `a` names the next page,
      writing the walk's value there extends what has been walked, and the
      running address moves on to the page after. */
  lemma WalkAdvance(vm: seq<u32>, vm0: seq<u32>, vaddr: u32, sz: u32, k: nat, a: u32, n: u32,
                    f: int -> u32, v: u32)
    requires |vm| == VMAP_ITEMS && |vm0| == VMAP_ITEMS
    requires Aligned(sz) && n > 0 && n == sz - k * PAGE_SIZE
    requires a == PageAddr(Page(vaddr) + k)
    requires Walked(vm, vm0, Page(vaddr), k, f)
    requires v == f((Page(vaddr) + k) % VMAP_ITEMS)
    ensures n >= PAGE_SIZE && Page(a) == (Page(vaddr) + k) % VMAP_ITEMS
    ensures Add(a, PAGE_SIZE) == PageAddr(Page(vaddr) + (k + 1))
    ensures Walked(vm[Page(a) := v], vm0, Page(vaddr), k + 1, f)
  {
    CountStep(n, sz, k);
    PageAddrNext(Page(vaddr) + k);
    WalkStep(vm, vm0, Page(vaddr), k, f, Page(a), v);
  }

  /** The address of page `j`, for any page number modulo 2^20. */
  function PageAddr(j: int): u32
  {
    (j % VMAP_ITEMS) * PAGE_SIZE
  }

  /** The byte count left in a walk is a whole number of pages, so while
      it is positive at least one page remains and fewer than 2^20 pages
      have been visited. */
  lemma CountStep(n: u32, sz: u32, k: int)
    requires Aligned(sz) && 0 <= k && n == sz - k * PAGE_SIZE && n > 0
    ensures k < VMAP_ITEMS && n >= PAGE_SIZE
  {
    assert k < sz / PAGE_SIZE;
  }

  /** The next page's address is one page further on, and the page after
      the last one is page 0. */
  lemma PageAddrNext(m: nat)
    ensures Add(PageAddr(m), PAGE_SIZE) == PageAddr(m + 1)
    ensures Page(PageAddr(m)) == m % VMAP_ITEMS
  {
    var r := m % VMAP_ITEMS;
    var q := m / VMAP_ITEMS;
    if r + 1 < VMAP_ITEMS {
      Arith.ModUnique(m + 1, VMAP_ITEMS, q, r + 1);
    } else {
      Arith.ModUnique(m + 1, VMAP_ITEMS, q + 1, 0);
    }
  }

  /** The entry `vtlb_VMapUnmap` aims page `va` at: the unmapped-virtual
      slot for its half of the address space, OR-ed with the address and
      with the top bit. */
  function UnmapTarget(rs: Reserved, va: u32): (r: u32)
    ensures IsNeg(r)
  {
    var handl := if IsNeg(va) then rs.virt1 else rs.virt0;
    OrSign(BitOr(handl, va));
    BitOr(BitOr(handl, va), SIGN)
  }

  /** The entry `vtlb_VMap` aims a page at for physical address `pa`:
      outside the physical window, the unmapped-physical slot for its half
      OR-ed with the top bit and the address; inside, the `pmap` entry,
      with the address OR-ed in when the entry is a handler. */
  function PhysTarget(pmap: seq<u32>, rs: Reserved, pa: u32): u32
    requires |pmap| == PhysMap.PMAP_ITEMS
  {
    if pa >= PhysMap.PMAP_SZ then
      BitOr(BitOr(if IsNeg(pa) then rs.phys1 else rs.phys0, SIGN), pa)
    else
      var e := pmap[Page(pa)];
      if IsNeg(e) then BitOr(e, pa) else e
  }

  /** A page `VMap` aims at physical address `pa` takes the handler path
      exactly when `pa` is outside the window or on a handler page: the
      target has its top bit set in just those cases, and on a memory page
      it is that page's host address. */
  lemma PhysTargetSign(pmap: seq<u32>, rs: Reserved, pa: u32)
    requires |pmap| == PhysMap.PMAP_ITEMS
    ensures IsNeg(PhysTarget(pmap, rs, pa)) <==> pa >= PhysMap.PMAP_SZ || IsNeg(pmap[Page(pa)])
    ensures pa < PhysMap.PMAP_SZ && !IsNeg(pmap[Page(pa)]) ==> PhysTarget(pmap, rs, pa) == pmap[Page(pa)]
  {
    if pa >= PhysMap.PMAP_SZ {
      var h := if IsNeg(pa) then rs.phys1 else rs.phys0;
      OrSign(h);
      OrKeepsSign(BitOr(h, SIGN), pa);
    } else if IsNeg(pmap[Page(pa)]) {
      OrKeepsSign(pmap[Page(pa)], pa);
    }
  }

  /** The entry `vtlb_VMapUnmap` stores for page `j`. */
  function UnmapEntry(rs: Reserved, j: int): u32
  {
    Sub(UnmapTarget(rs, PageAddr(j)), PageAddr(j))
  }

  /** The entry `vtlb_VMap` stores for page `j` of a walk from `vaddr`
      that started at physical address `paddr`. */
  function MapEntry(pmap: seq<u32>, rs: Reserved, vaddr: u32, paddr: u32, j: int): u32
    requires |pmap| == PhysMap.PMAP_ITEMS
  {
    Sub(PhysTarget(pmap, rs, Along(paddr, j, vaddr)), PageAddr(j))
  }

  /** The entry `vtlb_VMapBuffer` stores for page `j` of a walk from
      `vaddr` that started at host address `buffer`. */
  function BufferEntry(vaddr: u32, buffer: u32, j: int): u32
  {
    Sub(Along(buffer, j, vaddr), PageAddr(j))
  }

  /** The entry `vtlb_VMap` writes at step `k` of its walk, from the
      running physical and virtual addresses, is the one `MapEntry` names
      for the page written. */
  lemma MapEntryAt(pmap: seq<u32>, rs: Reserved, vaddr: u32, paddr: u32, k: int, p: u32, a: u32)
    requires |pmap| == PhysMap.PMAP_ITEMS && 0 <= k < VMAP_ITEMS
    requires p == Wrap(paddr + k * PAGE_SIZE) && a == PageAddr(Page(vaddr) + k)
    ensures MapEntry(pmap, rs, vaddr, paddr, (Page(vaddr) + k) % VMAP_ITEMS) == Sub(PhysTarget(pmap, rs, p), a)
  {
    WalkTarget(Page(vaddr), k);
  }

  /** `vtlb_VMapUnmap`: every page of the `sz` bytes from `vaddr` is aimed
      at its unmapped-virtual handler; every other page is left as it was.
      The address and size must be page-aligned and the size positive. */
  method VMapUnmap(vmap: seq<u32>, rs: Reserved, vaddr: u32, sz: u32) returns (vmap': seq<u32>)
    requires |vmap| == VMAP_ITEMS
    requires Aligned(vaddr) && Aligned(sz) && sz > 0
    ensures |vmap'| == VMAP_ITEMS
    ensures forall j :: 0 <= j < VMAP_ITEMS ==>
              vmap'[j] == if Covered(j, vaddr, sz) then UnmapEntry(rs, j) else vmap[j]
  {
    vmap' := vmap;
    var a: u32 := vaddr;
    var n: u32 := sz;
    ghost var k: nat := 0;
    while n > 0
      invariant |vmap'| == VMAP_ITEMS
      invariant a == PageAddr(Page(vaddr) + k)
      invariant n == sz - k * PAGE_SIZE
      invariant Walked(vmap', vmap, Page(vaddr), k, j => UnmapEntry(rs, j))
    {
      var handl := if IsNeg(a) then rs.virt1 else rs.virt0;
      handl := BitOr(handl, a);
      handl := BitOr(handl, SIGN);
      CountStep(n, sz, k);
      WalkTarget(Page(vaddr), k);
      WalkAdvance(vmap', vmap, vaddr, sz, k, a, n, j => UnmapEntry(rs, j), Sub(handl, a));
      vmap' := vmap'[Page(a) := Sub(handl, a)];
      a := Add(a, PAGE_SIZE);
      n := n - PAGE_SIZE;
      k := k + 1;
    }
  }

  /** `vtlb_VMap`: the page `d` pages past `vaddr` is aimed at what the
      physical address `d` pages past `paddr` resolves to. Both addresses
      advance with 32-bit wrap-around. All three arguments must be
      page-aligned and the size positive. */
  method VMap(vmap: seq<u32>, pmap: seq<u32>, rs: Reserved, vaddr: u32, paddr: u32, sz: u32)
    returns (vmap': seq<u32>)
    requires |vmap| == VMAP_ITEMS && |pmap| == PhysMap.PMAP_ITEMS
    requires Aligned(vaddr) && Aligned(paddr) && Aligned(sz) && sz > 0
    ensures |vmap'| == VMAP_ITEMS
    ensures forall j :: 0 <= j < VMAP_ITEMS ==>
              vmap'[j] == if Covered(j, vaddr, sz) then MapEntry(pmap, rs, vaddr, paddr, j) else vmap[j]
  {
    vmap' := vmap;
    var a: u32 := vaddr;
    var p: u32 := paddr;
    var n: u32 := sz;
    ghost var k: nat := 0;
    while n > 0
      invariant |vmap'| == VMAP_ITEMS
      invariant a == PageAddr(Page(vaddr) + k)
      invariant p == Wrap(paddr + k * PAGE_SIZE)
      invariant n == sz - k * PAGE_SIZE
      invariant Walked(vmap', vmap, Page(vaddr), k, j => MapEntry(pmap, rs, vaddr, paddr, j))
    {
      var pme := PhysTarget(pmap, rs, p);
      CountStep(n, sz, k);
      MapEntryAt(pmap, rs, vaddr, paddr, k, p, a);
      WalkAdvance(vmap', vmap, vaddr, sz, k, a, n, j => MapEntry(pmap, rs, vaddr, paddr, j), Sub(pme, a));
      vmap' := vmap'[Page(a) := Sub(pme, a)];
      StepOn(paddr, k);
      a := Add(a, PAGE_SIZE);
      p := Add(p, PAGE_SIZE);
      n := n - PAGE_SIZE;
      k := k + 1;
    }
  }

  /** `vtlb_VMapBuffer`: the page `d` pages past `vaddr` is aimed at the
      host address `d` pages past `buffer`. The address and size must be
      page-aligned and the size positive; the buffer need not be. */
  method VMapBuffer(vmap: seq<u32>, vaddr: u32, buffer: u32, sz: u32) returns (vmap': seq<u32>)
    requires |vmap| == VMAP_ITEMS
    requires Aligned(vaddr) && Aligned(sz) && sz > 0
    ensures |vmap'| == VMAP_ITEMS
    ensures forall j :: 0 <= j < VMAP_ITEMS ==>
              vmap'[j] == if Covered(j, vaddr, sz) then BufferEntry(vaddr, buffer, j) else vmap[j]
  {
    vmap' := vmap;
    var a: u32 := vaddr;
    var bu8: u32 := buffer;
    var n: u32 := sz;
    ghost var k: nat := 0;
    while n > 0
      invariant |vmap'| == VMAP_ITEMS
      invariant a == PageAddr(Page(vaddr) + k)
      invariant bu8 == Wrap(buffer + k * PAGE_SIZE)
      invariant n == sz - k * PAGE_SIZE
      invariant Walked(vmap', vmap, Page(vaddr), k, j => BufferEntry(vaddr, buffer, j))
    {
      CountStep(n, sz, k);
      WalkTarget(Page(vaddr), k);
      WalkAdvance(vmap', vmap, vaddr, sz, k, a, n, j => BufferEntry(vaddr, buffer, j), Sub(bu8, a));
      vmap' := vmap'[Page(a) := Sub(bu8, a)];
      StepOn(buffer, k);
      a := Add(a, PAGE_SIZE);
      bu8 := Add(bu8, PAGE_SIZE);
      n := n - PAGE_SIZE;
      k := k + 1;
    }
  }

  /** With slot numbers below the page size, the unmapped-virtual target
      is the slot plus the page address with its top bit set. */
  lemma UnmapTargetShape(rs: Reserved, va: u32)
    requires Aligned(va) && rs.virt0 < PAGE_SIZE && rs.virt1 < PAGE_SIZE
    ensures UnmapTarget(rs, va) == (if IsNeg(va) then rs.virt1 else rs.virt0) + SetSign(va)
  {
    var hv := if IsNeg(va) then rs.virt1 else rs.virt0;
    OrLowPage(hv, va);
    OrSign(hv + va);
  }

  /** The three shapes of a physical target for a page-aligned address:
      outside the window, the unmapped-physical slot of its half plus the
      address with its top bit set; inside, a handler page's slot plus the
      address with its top bit set, or a memory page's host address. */
  lemma PhysTargetShape(pmap: seq<u32>, rs: Reserved, pa: u32)
    requires |pmap| == PhysMap.PMAP_ITEMS && Aligned(pa)
    ensures pa >= PhysMap.PMAP_SZ && rs.phys0 < PAGE_SIZE && rs.phys1 < PAGE_SIZE ==>
              PhysTarget(pmap, rs, pa) == (if IsNeg(pa) then rs.phys1 else rs.phys0) + SetSign(pa)
    ensures pa < PhysMap.PMAP_SZ && IsNeg(pmap[Page(pa)]) && pmap[Page(pa)] < SIGN + PAGE_SIZE ==>
              PhysTarget(pmap, rs, pa) == pmap[Page(pa)] - SIGN + SetSign(pa)
    ensures pa < PhysMap.PMAP_SZ && !IsNeg(pmap[Page(pa)]) ==>
              PhysTarget(pmap, rs, pa) == pmap[Page(pa)]
  {
    if pa >= PhysMap.PMAP_SZ {
      if rs.phys0 < PAGE_SIZE && rs.phys1 < PAGE_SIZE {
        var hp := if IsNeg(pa) then rs.phys1 else rs.phys0;
        OrSign(hp);
        OrHandlerPage(hp, pa);
      }
    } else if IsNeg(pmap[Page(pa)]) && pmap[Page(pa)] < SIGN + PAGE_SIZE {
      OrHandlerPage(pmap[Page(pa)] - SIGN, pa);
    }
  }

  /** The entry `VMap` stores for page `j` whose physical address `pa`
      lies on a memory page of the window: that page's host address, less
      the page's own address. */
  lemma MapEntryRam(pmap: seq<u32>, rs: Reserved, vaddr: u32, paddr: u32, j: int)
    requires |pmap| == PhysMap.PMAP_ITEMS && Aligned(paddr)
    requires Along(paddr, j, vaddr) < PhysMap.PMAP_SZ && !IsNeg(pmap[Page(Along(paddr, j, vaddr))])
    ensures Aligned(Along(paddr, j, vaddr))
    ensures MapEntry(pmap, rs, vaddr, paddr, j) == Sub(pmap[Page(Along(paddr, j, vaddr))], PageAddr(j))
  {
    var pa := Along(paddr, j, vaddr);
    AlongAligned(paddr, j, vaddr);
    PhysTargetShape(pmap, rs, pa);
    assert PhysTarget(pmap, rs, pa) == pmap[Page(pa)];
  }

  /** The entry `VMap` stores for page `j` whose physical address `pa`
      lies on a handler page of the window: the handler's slot plus `pa`
      with its top bit set, less the page's own address. */
  lemma MapEntryHandler(pmap: seq<u32>, rs: Reserved, vaddr: u32, paddr: u32, j: int)
    requires |pmap| == PhysMap.PMAP_ITEMS && Aligned(paddr)
    requires var pa := Along(paddr, j, vaddr);
             pa < PhysMap.PMAP_SZ && IsNeg(pmap[Page(pa)]) && pmap[Page(pa)] < SIGN + PAGE_SIZE
    ensures Aligned(Along(paddr, j, vaddr))
    ensures var pa := Along(paddr, j, vaddr);
            MapEntry(pmap, rs, vaddr, paddr, j) == Sub(pmap[Page(pa)] - SIGN + SetSign(pa), PageAddr(j))
  {
    var pa := Along(paddr, j, vaddr);
    AlongAligned(paddr, j, vaddr);
    PhysTargetShape(pmap, rs, pa);
    assert PhysTarget(pmap, rs, pa) == pmap[Page(pa)] - SIGN + SetSign(pa);
  }

  /** The entry `VMap` stores for page `j` whose physical address `pa`
      lies outside the window: the unmapped-physical slot of `pa`'s half
      plus `pa` with its top bit set, less the page's own address. */
  lemma MapEntryOutside(pmap: seq<u32>, rs: Reserved, vaddr: u32, paddr: u32, j: int)
    requires |pmap| == PhysMap.PMAP_ITEMS && Aligned(paddr) && rs.phys0 < PAGE_SIZE && rs.phys1 < PAGE_SIZE
    requires Along(paddr, j, vaddr) >= PhysMap.PMAP_SZ
    ensures Aligned(Along(paddr, j, vaddr))
    ensures var pa := Along(paddr, j, vaddr);
            MapEntry(pmap, rs, vaddr, paddr, j) == Sub((if IsNeg(pa) then rs.phys1 else rs.phys0) + SetSign(pa), PageAddr(j))
  {
    var pa := Along(paddr, j, vaddr);
    AlongAligned(paddr, j, vaddr);
    PhysTargetShape(pmap, rs, pa);
    assert PhysTarget(pmap, rs, pa) == (if IsNeg(pa) then rs.phys1 else rs.phys0) + SetSign(pa);
  }

  /** Stepping an address `k` pages on from `base` by one more page. */
  lemma StepOn(base: u32, k: nat)
    ensures Add(Wrap(base + k * PAGE_SIZE), PAGE_SIZE) == Wrap(base + (k + 1) * PAGE_SIZE)
  {
    WrapAdd(base + k * PAGE_SIZE, PAGE_SIZE);
  }

  /** An address stepped from a page-aligned start by whole pages is
      page-aligned, wrap-around included. */
  lemma AlongAligned(base: u32, j: int, vaddr: u32)
    requires Aligned(base)
    ensures Aligned(Along(base, j, vaddr))
  {
    var d := Dist(j, Page(vaddr));
    var b := base / PAGE_SIZE;
    var x := base + d * PAGE_SIZE;
    var q := x / TWO32;
    assert x == PAGE_SIZE * (b + d);
    assert Wrap(x) == PAGE_SIZE * (b + d - VMAP_ITEMS * q);
    Arith.ModUnique(Wrap(x), PAGE_SIZE, b + d - VMAP_ITEMS * q, 0);
  }

  /** Every byte `x < sz` past `vaddr` lies on a page the walk from `vaddr`
      covers, `x / 4096` pages from its first, at the same offset, with the
      address wrapping past the top of the address space. */
  lemma CoveredByte(vaddr: u32, sz: u32, x: u32)
    requires Aligned(vaddr) && Aligned(sz) && x < sz
    ensures Covered(Page(Wrap(vaddr + x)), vaddr, sz)
    ensures Dist(Page(Wrap(vaddr + x)), Page(vaddr)) == x / PAGE_SIZE
    ensures Offset(Wrap(vaddr + x)) == Offset(x)
  {
    var P := Page(vaddr);
    var qx := x / PAGE_SIZE;
    var m := (P + qx) % VMAP_ITEMS;
    var c := (P + qx) / VMAP_ITEMS;
    assert vaddr + x == TWO32 * c + (PAGE_SIZE * m + Offset(x));
    Arith.ModUnique(vaddr + x, TWO32, c, PAGE_SIZE * m + Offset(x));
    Arith.ModUnique(PAGE_SIZE * m, PAGE_SIZE, m, 0);
    PageSplit(PAGE_SIZE * m, Offset(x));
    Arith.ModUnique(m - P, VMAP_ITEMS, -c, qx);
    assert qx < sz / PAGE_SIZE;
  }

  /** The page a walk from `vaddr` sets for the byte `x < sz` past
      `vaddr` is stepped from `base` to `base + x`, less the offset: the
      byte `x` past `vaddr` reaches the byte `x` past `base`, wrap-around
      included. */
  lemma AlongByte(base: u32, vaddr: u32, sz: u32, x: u32)
    requires Aligned(base) && Aligned(vaddr) && Aligned(sz) && x < sz
    ensures Covered(Page(Wrap(vaddr + x)), vaddr, sz)
    ensures Offset(Wrap(vaddr + x)) == Offset(x)
    ensures Along(base, Page(Wrap(vaddr + x)), vaddr) + Offset(x) == Wrap(base + x)
  {
    CoveredByte(vaddr, sz, x);
    var y := base + (x / PAGE_SIZE) * PAGE_SIZE;
    assert y % PAGE_SIZE == 0 by {
      Arith.ModUnique(y, PAGE_SIZE, base / PAGE_SIZE + x / PAGE_SIZE, 0);
    }
    WrapAligned(y, Offset(x));
    assert y + Offset(x) == base + x;
  }
}

=== FILE: vtlb.dfy ===
/** The translation state as a whole: the physical and virtual page
    tables, the handler table with its counter, and the slots `vtlb_Init`
    reserves. `Init` builds the state the emulator starts from; the lemmas
    follow an access from the mapping call that set up its page to what the
    access does. */
module Vtlb {
  import opened Words
  import opened Handlers
  import Arith
  import PhysMap
  import VirtMap
  import opened Translate

  datatype State = State(
    pmap: seq<u32>,
    vmap: seq<u32>,
    reg: Registry,
    rs: VirtMap.Reserved, // the four unmapped-handler slots
    defaultPhy: u32)      // DefaultPhyHandler
  {
    ghost predicate Valid()
    {
      |pmap| == PhysMap.PMAP_ITEMS && |vmap| == VirtMap.VMAP_ITEMS && reg.Valid()
    }
  }

  /** The reserved slots hold the unmapped handlers registered for them,
      each carrying the top bit of its half of the address space. */
  ghost predicate Reserves(reg: Registry, rs: VirtMap.Reserved)
    requires reg.Valid()
  {
    && rs.virt0 < SLOTS && reg.slots[rs.virt0] == UnmappedVirtSet(false)
    && rs.virt1 < SLOTS && reg.slots[rs.virt1] == UnmappedVirtSet(true)
    && rs.phys0 < SLOTS && reg.slots[rs.phys0] == UnmappedPhysSet(false)
    && rs.phys1 < SLOTS && reg.slots[rs.phys1] == UnmappedPhysSet(true)
  }

  /** What `vtlb_Init` leaves: slots 0 to 4 taken by the unmapped virtual
      (lower, upper half), unmapped physical (lower, upper half) and default
      handlers, every physical page served by the default handler, and
      every virtual page aimed at its unmapped-virtual handler. */
  ghost predicate Initialised(s: State)
  {
    && s.Valid()
    && s.rs == VirtMap.Reserved(0, 1, 2, 3) && s.defaultPhy == 4 && s.reg.count == 5
    && Reserves(s.reg, s.rs)
    && (forall p :: s.reg.slots[s.defaultPhy].Get(p) == DefaultPhy)
    && (forall i :: 0 <= i < PhysMap.PMAP_ITEMS ==> s.pmap[i] == PhysMap.HandlerEntry(s.defaultPhy))
    && (forall j :: 0 <= j < VirtMap.VMAP_ITEMS ==> s.vmap[j] == VirtMap.UnmapEntry(s.rs, j))
  }

  /** Registering a template none of whose cells is null fills the new
      slot with exactly that template. */
  lemma RegisterKeeps(reg: Registry, fns: HandlerSet)
    requires reg.Valid() && reg.count < SLOTS
    requires forall p :: !fns.Get(p).Null?
    ensures RegisterHandler(reg, fns).reg.slots[reg.count] == fns
  {
    var r := RegisterHandler(reg, fns);
    SameOnEveryPort(r.reg.slots[r.slot], fns);
  }

  /** The two unmap calls of `vtlb_Init` together cover every virtual page:
      the first all pages but the last, the second the last. */
  lemma InitCovers(j: int)
    requires 0 <= j < VirtMap.VMAP_ITEMS
    ensures j < VirtMap.VMAP_ITEMS - 1 ==> VirtMap.Covered(j, 0, (VirtMap.VMAP_ITEMS - 1) * PAGE_SIZE)
    ensures j == VirtMap.VMAP_ITEMS - 1 ==> VirtMap.Covered(j, (VirtMap.VMAP_ITEMS - 1) * PAGE_SIZE, PAGE_SIZE)
  {
    Arith.ModUnique(j, VirtMap.VMAP_ITEMS, 0, j);
  }

  /** `vtlb_Init`: clear the handler table and its counter, register the
      four unmapped handlers and the default handler in that order, map the
      whole physical window to the default handler, and aim every virtual
      page at its unmapped-virtual handler. The tables' previous contents
      are overwritten entry by entry. */
  method Init(pmap0: seq<u32>, vmap0: seq<u32>) returns (s: State)
    requires |pmap0| == PhysMap.PMAP_ITEMS && |vmap0| == VirtMap.VMAP_ITEMS
    ensures Initialised(s)
    ensures forall h, p :: s.reg.count <= h < SLOTS ==> s.reg.slots[h].Get(p) == Null
  {
    var reg := Cleared();
    RegisterKeeps(reg, UnmappedVirtSet(false));
    var r := RegisterHandler(reg, UnmappedVirtSet(false));
    var virt0 := r.slot;
    reg := r.reg;
    RegisterKeeps(reg, UnmappedVirtSet(true));
    r := RegisterHandler(reg, UnmappedVirtSet(true));
    var virt1 := r.slot;
    reg := r.reg;
    RegisterKeeps(reg, UnmappedPhysSet(false));
    r := RegisterHandler(reg, UnmappedPhysSet(false));
    var phys0 := r.slot;
    reg := r.reg;
    RegisterKeeps(reg, UnmappedPhysSet(true));
    r := RegisterHandler(reg, UnmappedPhysSet(true));
    var phys1 := r.slot;
    reg := r.reg;
    r := RegisterHandler(reg, Uniform(Null));
    var defaultPhy := r.slot;
    reg := r.reg;
    var rs := VirtMap.Reserved(virt0, virt1, phys0, phys1);

    var pmap := PhysMap.MapHandler(pmap0, defaultPhy, 0, PhysMap.PMAP_SZ);
    var vmap := VirtMap.VMapUnmap(vmap0, rs, 0, (VirtMap.VMAP_ITEMS - 1) * PAGE_SIZE);
    vmap := VirtMap.VMapUnmap(vmap, rs, (VirtMap.VMAP_ITEMS - 1) * PAGE_SIZE, PAGE_SIZE);
    forall j | 0 <= j < VirtMap.VMAP_ITEMS
      ensures vmap[j] == VirtMap.UnmapEntry(rs, j)
    {
      InitCovers(j);
    }
    s := State(pmap, vmap, reg, rs, defaultPhy);
  }

  /** After `Init` the next registration gets slot 5, and the reserved
      slots keep their handlers. */
  lemma FirstUserSlot(s: State, fns: HandlerSet)
    requires Initialised(s)
    ensures RegisterHandler(s.reg, fns).slot == 5
    ensures Reserves(RegisterHandler(s.reg, fns).reg, s.rs)
  {
  }

  /** After `Init` no physical address has a host pointer. */
  lemma InitNoPhysicalPointers(s: State, paddr: u32)
    requires Initialised(s)
    ensures PhysMap.GetPhyPtr(s.pmap, paddr) == 0
  {
  }

  /** Called with an address whose top bit is cleared, the
      unmapped-virtual handler of the address's half raises the TLB miss
      for the address with its top bit restored. */
  lemma UnmappedVirtReports(reg: Registry, rs: VirtMap.Reserved, port: Port, addr: u32)
    requires reg.Valid() && Reserves(reg, rs)
    ensures Call(reg, port, Handler(if IsNeg(addr) then rs.virt1 else rs.virt0, ClearSign(addr)))
              == TlbMiss(addr, port.dir)
  {
    UnmappedRestoresTopBit(IsNeg(addr), port, ClearSign(addr));
  }

  /** Likewise the unmapped-physical handler of a page-aligned physical
      address's half, called with any address of that page with its top
      bit cleared, reports the bus error for the address with its top bit
      restored. */
  lemma UnmappedPhysReports(reg: Registry, rs: VirtMap.Reserved, port: Port, pa: u32, off: nat)
    requires reg.Valid() && Reserves(reg, rs) && Aligned(pa) && off < PAGE_SIZE
    ensures pa + off < TWO32
    ensures Call(reg, port, Handler(if IsNeg(pa) then rs.phys1 else rs.phys0, ClearSign(pa) + off))
              == BusError(pa + off, port.dir)
  {
    assert pa == PAGE_SIZE * Page(pa) && Page(pa) < 0x10_0000;
    UnmappedRestoresTopBit(IsNeg(pa), port, ClearSign(pa) + off);
  }

  /** An access to a page aimed at its unmapped-virtual handler reaches
      the slot of its half of the address space with the address, top bit
      cleared, and that handler raises the TLB miss for exactly the address
      accessed, top bit included. This holds unless the handler's slot
      number added to the address with its top bit set reaches 2^32. */
  lemma UnmappedAccessMisses(vmap: seq<u32>, reg: Registry, rs: VirtMap.Reserved, port: Port, addr: u32)
    requires |vmap| == VirtMap.VMAP_ITEMS && reg.Valid() && Reserves(reg, rs)
    requires vmap[Page(addr)] == VirtMap.UnmapEntry(rs, Page(addr))
    requires (if IsNeg(addr) then rs.virt1 else rs.virt0) + SetSign(addr) < TWO32
    ensures Access(vmap, port.width, addr) == Handler(if IsNeg(addr) then rs.virt1 else rs.virt0, ClearSign(addr))
    ensures Call(reg, port, Handler(if IsNeg(addr) then rs.virt1 else rs.virt0, ClearSign(addr))) == TlbMiss(addr, port.dir)
  {
    var hv := if IsNeg(addr) then rs.virt1 else rs.virt0;
    var va := UnmappedEntryShape(rs, addr);
    AccessHandler(vmap, port.width, addr, hv, va);
    UnmappedVirtReports(reg, rs, port, addr);
  }

  /** The entry `UnmapEntry` stores for an address's page, written as a
      handler target over the page's start `va`. */
  lemma UnmappedEntryShape(rs: VirtMap.Reserved, addr: u32) returns (va: u32)
    requires rs.virt0 < SLOTS && rs.virt1 < SLOTS
    ensures va <= 0xFFFF_F000 && Aligned(va) && IsNeg(va) == IsNeg(addr) && ClearSign(va) + Offset(addr) == ClearSign(addr)
    ensures SetSign(va) + Offset(addr) == SetSign(addr)
    ensures VirtMap.UnmapEntry(rs, Page(addr))
              == Sub((if IsNeg(addr) then rs.virt1 else rs.virt0) + SetSign(va), VirtMap.PageAddr(Page(addr)))
  {
    va := VirtMap.PageAddr(Page(addr));
    assert va == addr - Offset(addr) by {
      PageOfAddr(addr);
    }
    PageStart(addr);
    VirtMap.UnmapTargetShape(rs, va);
  }

  /** After `Init` every access but one reaches the unmapped-virtual slot
      of its half of the address space and raises the TLB miss for the
      address accessed. */
  lemma InitMisses(s: State, port: Port, addr: u32)
    requires Initialised(s) && addr != 0xFFFF_FFFF
    ensures Access(s.vmap, port.width, addr) == Handler(if IsNeg(addr) then 1 else 0, ClearSign(addr))
    ensures Call(s.reg, port, Handler(if IsNeg(addr) then 1 else 0, ClearSign(addr))) == TlbMiss(addr, port.dir)
  {
    UnmappedAccessMisses(s.vmap, s.reg, s.rs, port, addr);
  }

  /** The exception: after `Init` an access to `0xFFFFFFFF` wraps past 2^32
      on the slow-path test and goes to host address 0. */
  lemma InitTopAddressWraps(s: State, w: Width)
    requires Initialised(s)
    ensures Access(s.vmap, w, 0xFFFF_FFFF) == Host(Transfers(w, 0))
  {
    var va := VirtMap.PageAddr(Page(0xFFFF_FFFF));
    assert va == 0xFFFF_F000 by {
      PageOfAddr(0xFFFF_FFFF);
    }
    assert s.vmap[Page(0xFFFF_FFFF)] == Sub(1 + SetSign(va), va) by {
      VirtMap.UnmapTargetShape(s.rs, va);
    }
    assert Decode(s.vmap[Page(0xFFFF_FFFF)], 0xFFFF_FFFF) == Direct(0) by {
      HandlerWraps(1, va, 0xFFFF_FFFF);
    }
  }

  /** What a narrow read answers after `Init`: every address but
      `0xFFFFFFFF` reaches an unmapped-virtual handler, whose 8, 16 or
      32-bit read returns 0. */
  lemma InitReadsZero(s: State, w: Width, addr: u32)
    requires Initialised(s) && addr != 0xFFFF_FFFF && (w.W8? || w.W16? || w.W32?)
    ensures Access(s.vmap, w, addr).Handler? && Access(s.vmap, w, addr).slot == (if IsNeg(addr) then 1 else 0)
    ensures var o := Access(s.vmap, w, addr);
            BuiltinReply(s.reg.slots[o.slot].Get(Port(w, Read)), Port(w, Read)) == Value(0)
  {
    InitMisses(s, Port(w, Read), addr);
  }

  /** After `Init` every physical page of the window is served by the
      default handler, so a page that `VMap` aims into the window reaches
      slot 4; an 8, 16 or 32-bit read there returns all bits set, and any
      access is reported as unhandled at the physical address of the byte
      accessed. */
  lemma InitDefaultReadsAllOnes(s: State, vmap: seq<u32>, vaddr: u32, paddr: u32, port: Port, addr: u32)
    requires Initialised(s) && |vmap| == VirtMap.VMAP_ITEMS && Aligned(paddr)
    requires vmap[Page(addr)] == VirtMap.MapEntry(s.pmap, s.rs, vaddr, paddr, Page(addr))
    requires VirtMap.Along(paddr, Page(addr), vaddr) < PhysMap.PMAP_SZ
    ensures Access(vmap, port.width, addr)
              == Handler(s.defaultPhy, VirtMap.Along(paddr, Page(addr), vaddr) + Offset(addr))
    ensures Call(s.reg, port, Access(vmap, port.width, addr))
              == DefaultAccess(VirtMap.Along(paddr, Page(addr), vaddr) + Offset(addr), port)
    ensures port.dir == Read && !port.width.W64? && !port.width.W128? ==>
              BuiltinReply(s.reg.slots[s.defaultPhy].Get(port), port) == Value(AllOnes(port.width))
  {
    var pa := VirtMap.Along(paddr, Page(addr), vaddr);
    assert s.pmap[Page(pa)] == s.defaultPhy + SIGN by {
      var _ := PhysMap.HandlerEntry(s.defaultPhy);
    }
    MappedHandlerAccess(vmap, s.pmap, s.rs, vaddr, paddr, port.width, addr);
  }

  /** An access to a page that `VMap` aimed at a memory page of the
      physical window goes to host memory, at the address `GetPhyPtr` gives
      for the physical address of the byte accessed. */
  lemma MappedRamAccess(vmap: seq<u32>, pmap: seq<u32>, rs: VirtMap.Reserved,
                        vaddr: u32, paddr: u32, w: Width, addr: u32)
    requires |vmap| == VirtMap.VMAP_ITEMS && |pmap| == PhysMap.PMAP_ITEMS && Aligned(paddr)
    requires vmap[Page(addr)] == VirtMap.MapEntry(pmap, rs, vaddr, paddr, Page(addr))
    requires VirtMap.Along(paddr, Page(addr), vaddr) < PhysMap.PMAP_SZ
    requires !IsNeg(pmap[Page(VirtMap.Along(paddr, Page(addr), vaddr))])
    requires pmap[Page(VirtMap.Along(paddr, Page(addr), vaddr))] + Offset(addr) < SIGN
    ensures Access(vmap, w, addr)
              == Host(Transfers(w, PhysMap.GetPhyPtr(pmap, VirtMap.Along(paddr, Page(addr), vaddr) + Offset(addr))))
  {
    var pa := VirtMap.Along(paddr, Page(addr), vaddr);
    var e := pmap[Page(pa)];
    VirtMap.MapEntryRam(pmap, rs, vaddr, paddr, Page(addr));
    PageSplit(pa, Offset(addr));
    AccessDirect(vmap, w, addr, e);
  }

  /** What `VMap` promises, byte by byte: once it has aimed the `sz` bytes
      from `vaddr` at the physical bytes from `paddr`, the byte `x` past
      `vaddr` reads or writes host memory where `GetPhyPtr` puts the byte
      `x` past `paddr`, for every `x < sz` that lands on a memory page of
      the window. */
  lemma MappedByteAccess(vmap: seq<u32>, pmap: seq<u32>, rs: VirtMap.Reserved,
                         vaddr: u32, paddr: u32, sz: u32, w: Width, x: u32)
    requires |vmap| == VirtMap.VMAP_ITEMS && |pmap| == PhysMap.PMAP_ITEMS
    requires Aligned(vaddr) && Aligned(paddr) && Aligned(sz) && x < sz
    requires forall j :: 0 <= j < VirtMap.VMAP_ITEMS && VirtMap.Covered(j, vaddr, sz) ==>
               vmap[j] == VirtMap.MapEntry(pmap, rs, vaddr, paddr, j)
    requires Wrap(paddr + x) < PhysMap.PMAP_SZ
    requires !IsNeg(pmap[Page(Wrap(paddr + x))]) && pmap[Page(Wrap(paddr + x))] + Offset(x) < SIGN
    ensures Access(vmap, w, Wrap(vaddr + x)) == Host(Transfers(w, PhysMap.GetPhyPtr(pmap, Wrap(paddr + x))))
  {
    var addr := Wrap(vaddr + x);
    VirtMap.AlongByte(paddr, vaddr, sz, x);
    var pa := VirtMap.Along(paddr, Page(addr), vaddr);
    assert Page(Wrap(paddr + x)) == Page(pa) by {
      VirtMap.AlongAligned(paddr, Page(addr), vaddr);
      PageSplit(pa, Offset(x));
    }
    MappedRamAccess(vmap, pmap, rs, vaddr, paddr, w, addr);
  }

  /** An access to a page that `VMap` aimed at a handler page of the
      physical window reaches that handler's slot with the physical address
      of the byte accessed. */
  lemma MappedHandlerAccess(vmap: seq<u32>, pmap: seq<u32>, rs: VirtMap.Reserved,
                            vaddr: u32, paddr: u32, w: Width, addr: u32)
    requires |vmap| == VirtMap.VMAP_ITEMS && |pmap| == PhysMap.PMAP_ITEMS && Aligned(paddr)
    requires vmap[Page(addr)] == VirtMap.MapEntry(pmap, rs, vaddr, paddr, Page(addr))
    requires VirtMap.Along(paddr, Page(addr), vaddr) < PhysMap.PMAP_SZ
    requires IsNeg(pmap[Page(VirtMap.Along(paddr, Page(addr), vaddr))])
    requires pmap[Page(VirtMap.Along(paddr, Page(addr), vaddr))] - SIGN < SLOTS
    ensures Access(vmap, w, addr)
              == Handler(pmap[Page(VirtMap.Along(paddr, Page(addr), vaddr))] - SIGN,
                         VirtMap.Along(paddr, Page(addr), vaddr) + Offset(addr))
  {
    var pa := VirtMap.Along(paddr, Page(addr), vaddr);
    var h := pmap[Page(pa)] - SIGN;
    VirtMap.MapEntryHandler(pmap, rs, vaddr, paddr, Page(addr));
    AccessHandler(vmap, w, addr, h, pa);
  }

  /** An access to a page that `VMap` aimed at a physical address outside
      the window reaches the unmapped-physical slot of that address's half
      with the physical address of the byte accessed, top bit cleared;
      `UnmappedPhysReports` says what that handler does with it. This holds
      unless the slot number added to that address with its top bit set
      reaches 2^32. */
  lemma MappedUnmappedPhysAccess(vmap: seq<u32>, pmap: seq<u32>, rs: VirtMap.Reserved,
                                 vaddr: u32, paddr: u32, w: Width, addr: u32)
    requires |vmap| == VirtMap.VMAP_ITEMS && |pmap| == PhysMap.PMAP_ITEMS && Aligned(paddr)
    requires rs.phys0 < SLOTS && rs.phys1 < SLOTS
    requires vmap[Page(addr)] == VirtMap.MapEntry(pmap, rs, vaddr, paddr, Page(addr))
    requires VirtMap.Along(paddr, Page(addr), vaddr) >= PhysMap.PMAP_SZ
    requires var pa := VirtMap.Along(paddr, Page(addr), vaddr);
             (if IsNeg(pa) then rs.phys1 else rs.phys0) + SetSign(pa) + Offset(addr) < TWO32
    ensures var pa := VirtMap.Along(paddr, Page(addr), vaddr);
            Access(vmap, w, addr) == Handler(if IsNeg(pa) then rs.phys1 else rs.phys0, ClearSign(pa) + Offset(addr))
  {
    var pa := VirtMap.Along(paddr, Page(addr), vaddr);
    VirtMap.MapEntryOutside(pmap, rs, vaddr, paddr, Page(addr));
    AccessHandler(vmap, w, addr, if IsNeg(pa) then rs.phys1 else rs.phys0, pa);
  }

  /** The other side of `MappedUnmappedPhysAccess`: when the slot number
      added to the physical address with its top bit set, plus the offset,
      reaches 2^32 (physical page `0x7FFFF000` or `0xFFFFF000`, and an
      unmapped-physical slot above 0), the sum wraps to a small
      non-negative value and the access takes the fast path to that host
      address instead of reporting the bus error. */
  lemma MappedUnmappedPhysWraps(vmap: seq<u32>, pmap: seq<u32>, rs: VirtMap.Reserved,
                                vaddr: u32, paddr: u32, w: Width, addr: u32)
    requires |vmap| == VirtMap.VMAP_ITEMS && |pmap| == PhysMap.PMAP_ITEMS && Aligned(paddr)
    requires rs.phys0 < SLOTS && rs.phys1 < SLOTS
    requires vmap[Page(addr)] == VirtMap.MapEntry(pmap, rs, vaddr, paddr, Page(addr))
    requires VirtMap.Along(paddr, Page(addr), vaddr) >= PhysMap.PMAP_SZ
    requires var pa := VirtMap.Along(paddr, Page(addr), vaddr);
             (if IsNeg(pa) then rs.phys1 else rs.phys0) + SetSign(pa) + Offset(addr) >= TWO32
    ensures SetSign(VirtMap.Along(paddr, Page(addr), vaddr)) == 0xFFFF_F000
    ensures var pa := VirtMap.Along(paddr, Page(addr), vaddr);
            Access(vmap, w, addr)
              == Host(Transfers(w, (if IsNeg(pa) then rs.phys1 else rs.phys0) + SetSign(pa) + Offset(addr) - TWO32))
  {
    var pa := VirtMap.Along(paddr, Page(addr), vaddr);
    var h := if IsNeg(pa) then rs.phys1 else rs.phys0;
    VirtMap.MapEntryOutside(pmap, rs, vaddr, paddr, Page(addr));
    HandlerWraps(h, pa, addr);
  }

  /** An access to a page that `VMapBuffer` aimed at a host buffer goes to
      the buffer, as far into it as the address is past the mapped start,
      as long as that host address stays in the lower half. */
  lemma BufferAccess(vmap: seq<u32>, vaddr: u32, buffer: u32, w: Width, addr: u32)
    requires |vmap| == VirtMap.VMAP_ITEMS
    requires vmap[Page(addr)] == VirtMap.BufferEntry(vaddr, buffer, Page(addr))
    requires VirtMap.Along(buffer, Page(addr), vaddr) + Offset(addr) < SIGN
    ensures Access(vmap, w, addr) == Host(Transfers(w, VirtMap.Along(buffer, Page(addr), vaddr) + Offset(addr)))
  {
    AccessDirect(vmap, w, addr, VirtMap.Along(buffer, Page(addr), vaddr));
  }

  /** What `VMapBuffer` promises, byte by byte: the byte `x < sz` past
      `vaddr` reads or writes the byte `x` past the buffer, as long as that
      stays in the lower half of the host address space. */
  lemma BufferByteAccess(vmap: seq<u32>, vaddr: u32, buffer: u32, sz: u32, w: Width, x: u32)
    requires |vmap| == VirtMap.VMAP_ITEMS
    requires Aligned(vaddr) && Aligned(sz) && x < sz
    requires forall j :: 0 <= j < VirtMap.VMAP_ITEMS && VirtMap.Covered(j, vaddr, sz) ==>
               vmap[j] == VirtMap.BufferEntry(vaddr, buffer, j)
    requires buffer + x < SIGN
    ensures Access(vmap, w, Wrap(vaddr + x)) == Host(Transfers(w, buffer + x))
  {
    var addr := Wrap(vaddr + x);
    VirtMap.CoveredByte(vaddr, sz, x);
    var y := buffer + (x / PAGE_SIZE) * PAGE_SIZE;
    assert VirtMap.Along(buffer, Page(addr), vaddr) == y by {
      Arith.ModUnique(y, TWO32, 0, y);
    }
    BufferAccess(vmap, vaddr, buffer, w, addr);
  }

  /** Start-up as the emulator does it: after `Init`, 32 MiB of host
      memory at `ram` laid over physical [0, 0x02000000) and the same range
      mapped one-to-one into virtual memory, a 32-bit read of `0x1000`
      reads host memory at `ram + 0x1000`, and one of `0x10000000`, which
      nothing mapped, reaches slot 0 and raises the TLB miss for that
      address. */
  method BootExample(pmap0: seq<u32>, vmap0: seq<u32>, ram: u32) returns (fast: Outcome, miss: Outcome, effect: Effect)
    requires |pmap0| == PhysMap.PMAP_ITEMS && |vmap0| == VirtMap.VMAP_ITEMS
    requires ram + 0x0200_0000 <= SIGN
    ensures fast == Host([ram + 0x1000])
    ensures miss == Handler(0, 0x1000_0000)
    ensures effect == TlbMiss(0x1000_0000, Read)
  {
    var s := Init(pmap0, vmap0);
    var pmap := PhysMap.MapBlock(s.pmap, ram, 0, 0x0200_0000, 0x0200_0000);
    var vmap := VirtMap.VMap(s.vmap, pmap, s.rs, 0, 0, 0x0200_0000);
    fast := Access(vmap, W32, 0x1000);
    miss := Access(vmap, W32, 0x1000_0000);
    PhysMap.HoldsAt(pmap, ram, 0, 0x0200_0000, 0x0200_0000, 1);
    assert VirtMap.Covered(1, 0, 0x0200_0000);
    assert !VirtMap.Covered(0x1_0000, 0, 0x0200_0000);
    BootFast(vmap, pmap, s.rs, ram);
    BootMiss(vmap, s.reg, s.rs);
    effect := Call(s.reg, Port(W32, Read), miss);
  }

  /** The mapped half of `BootExample`, from the two entries involved. */
  lemma BootFast(vmap: seq<u32>, pmap: seq<u32>, rs: VirtMap.Reserved, ram: u32)
    requires |vmap| == VirtMap.VMAP_ITEMS && |pmap| == PhysMap.PMAP_ITEMS
    requires ram + 0x0200_0000 <= SIGN
    requires pmap[1] == Add(ram, PAGE_SIZE % 0x0200_0000)
    requires vmap[1] == VirtMap.MapEntry(pmap, rs, 0, 0, 1)
    ensures Access(vmap, W32, 0x1000) == Host([ram + 0x1000])
  {
    BootEntry(pmap, rs, ram);
    assert Page(0x1000) == 1 && Offset(0x1000) == 0;
    AccessDirect(vmap, W32, 0x1000, ram + PAGE_SIZE);
  }

  /** The entry `VMap` stores for virtual page 1 in `BootExample`. */
  lemma BootEntry(pmap: seq<u32>, rs: VirtMap.Reserved, ram: u32)
    requires |pmap| == PhysMap.PMAP_ITEMS && ram + 0x0200_0000 <= SIGN
    requires pmap[1] == Add(ram, PAGE_SIZE % 0x0200_0000)
    ensures VirtMap.MapEntry(pmap, rs, 0, 0, 1) == Sub(ram + PAGE_SIZE, VirtMap.PageAddr(1))
  {
    assert VirtMap.Along(0, 1, 0) == PAGE_SIZE by {
      assert VirtMap.Dist(1, 0) == 1;
    }
    assert pmap[1] == ram + PAGE_SIZE by {
      Arith.ModUnique(ram + PAGE_SIZE, TWO32, 0, ram + PAGE_SIZE);
    }
    VirtMap.PhysTargetShape(pmap, rs, PAGE_SIZE);
  }

  /** The unmapped half of `BootExample`, from the entry involved. */
  lemma BootMiss(vmap: seq<u32>, reg: Registry, rs: VirtMap.Reserved)
    requires |vmap| == VirtMap.VMAP_ITEMS && reg.Valid() && Reserves(reg, rs) && rs.virt0 == 0
    requires vmap[0x1_0000] == VirtMap.UnmapEntry(rs, 0x1_0000)
    ensures Access(vmap, W32, 0x1000_0000) == Handler(0, 0x1000_0000)
    ensures Call(reg, Port(W32, Read), Handler(0, 0x1000_0000)) == TlbMiss(0x1000_0000, Read)
  {
    UnmappedAccessMisses(vmap, reg, rs, Port(W32, Read), 0x1000_0000);
  }
}

=== FILE: words.dfy ===
/** Unsigned 32-bit words as the VTLB computes with them: addition and
    subtraction wrap modulo 2^32, an `s32` is negative exactly when its top
    bit is set, `x >> 12` is the 4 KiB page number, `x & 4095` the offset in
    the page and `(u8)x` the low byte. */
module Words {
  import Bits
  import Arith

  type u32 = x: int | 0 <= x < 0x1_0000_0000

  const TWO32: int := 0x1_0000_0000
  /** `0x80000000`: the sign bit of an `s32`. */
  const SIGN: u32 := 0x8000_0000
  const PAGE_SIZE: int := 0x1000

  function Wrap(x: int): u32 { x % TWO32 }

  function Add(a: u32, b: u32): u32 { Wrap(a + b) }

  function Sub(a: u32, b: u32): u32 { Wrap(a - b) }

  /** The word read as an `s32` is below zero. */
  predicate IsNeg(x: u32) { x >= SIGN }

  /** Wrapping once at the end is the same as wrapping along the way. */
  lemma WrapAdd(x: int, y: int)
    ensures Wrap(Wrap(x) + y) == Wrap(x + y)
  {
  }

  /** A page-aligned value wraps to a page-aligned word, so adding an
      offset inside the page commutes with the wrap. */
  lemma WrapAligned(y: int, off: int)
    requires y % PAGE_SIZE == 0 && 0 <= off < PAGE_SIZE
    ensures Wrap(y) + off < TWO32 && Wrap(y + off) == Wrap(y) + off
  {
    var c := y / TWO32;
    var m := Wrap(y);
    var k := y / PAGE_SIZE;
    assert y == TWO32 * c + m && y == PAGE_SIZE * k;
    assert m == PAGE_SIZE * (k - 0x10_0000 * c);
    Arith.ModUnique(y + off, TWO32, c, m + off);
  }

  /** `x >> 12` */
  function Page(x: u32): nat { x / PAGE_SIZE }

  /** `x & 4095` */
  function Offset(x: u32): nat { x % PAGE_SIZE }

  predicate Aligned(x: u32) { x % PAGE_SIZE == 0 }

  /** The start of an address's page is page-aligned, lies in the same
      half of the address space, and setting or clearing the top bit
      commutes with adding the offset back. */
  lemma PageStart(addr: u32)
    ensures Aligned(addr - Offset(addr))
    ensures IsNeg(addr - Offset(addr)) == IsNeg(addr)
    ensures SetSign(addr - Offset(addr)) + Offset(addr) == SetSign(addr)
    ensures ClearSign(addr - Offset(addr)) + Offset(addr) == ClearSign(addr)
  {
    var q := addr / PAGE_SIZE;
    assert addr - Offset(addr) == PAGE_SIZE * q;
    assert IsNeg(addr) <==> q >= 0x8_0000;
  }

  /** A page-aligned address plus an offset inside the page splits back
      into that page and that offset. */
  lemma PageSplit(a: u32, off: nat)
    requires Aligned(a) && off < PAGE_SIZE && a + off < 0x1_0000_0000
    ensures Page(a + off) == Page(a) && Offset(a + off) == off
  {
    assert a == PAGE_SIZE * Page(a);
  }

  /** `(u8)x` */
  function LowByte(x: u32): u32 { x % 256 }

  /** The word with its top bit set, written arithmetically. */
  function SetSign(x: u32): u32 { if IsNeg(x) then x else x + SIGN }

  /** The word with its top bit cleared, written arithmetically. */
  function ClearSign(x: u32): u32 { if IsNeg(x) then x - SIGN else x }

  /** `a | b` on 32-bit words. */
  function BitOr(a: u32, b: u32): (r: u32)
  {
    Bits.Pow2Facts();
    Bits.OrBelow(a, b, 32);
    Bits.Or(a, b)
  }

  lemma OrZero(x: u32)
    ensures BitOr(x, 0) == x
  {
  }

  /** OR-ing a negative word with anything leaves it negative. */
  lemma OrKeepsSign(a: u32, b: u32)
    requires IsNeg(a)
    ensures IsNeg(BitOr(a, b))
  {
    Bits.OrAtLeast(a, b);
  }

  /** `x | 0x80000000` sets the sign bit and touches nothing else. */
  lemma OrSign(x: u32)
    ensures BitOr(x, SIGN) == SetSign(x)
  {
    Bits.Pow2Facts();
    Bits.OrPow(x, 31);
  }

  /** OR-ing a value below the page size into a page-aligned word is
      addition: the two have no digit in common. */
  lemma OrLowPage(h: u32, a: u32)
    requires h < PAGE_SIZE && Aligned(a)
    ensures BitOr(h, a) == h + a
  {
    var q := a / PAGE_SIZE;
    assert a == PAGE_SIZE * q;
    Bits.OrShift12(h, 0, q);
    assert Bits.Or(0, q) == q;
  }

  /** A handler entry `h | 0x80000000` OR-ed with a page-aligned address
      keeps `h` in the offset bits and the address, with its sign bit set,
      above them. */
  lemma OrHandlerPage(h: u32, a: u32)
    requires h < PAGE_SIZE && Aligned(a)
    ensures BitOr(h + SIGN, a) == h + SetSign(a)
  {
    var q := a / PAGE_SIZE;
    assert a == 0x1000 * q && q < 0x10_0000;
    Bits.OrShift12(h, 0x8_0000, q);
    Bits.OrBit19(q);
  }
}
